=== FILE: README.md ===
# PasteIntoFile, modelled in Dafny

PasteIntoFile is a Windows utility. It adds entries to Explorer's context
menu so that whatever is on the clipboard can be saved as a file in the
folder that was clicked. This project models the decisions of its core:

- **The paste dialog** (`Dialog`, `DialogProperties`, `ContinuousMode`):
  - reading the clipboard and picking the extension;
  - rendering the filename;
  - composing the target path;
  - the save decision and every way it can end: saved, overwrite declined,
    target is a directory, not a URI, nothing to save, access denied, other
    I/O error;
  - the save counter;
  - continuous mode: arming, the 100 ms debounce, and a whole session of
    clipboard notifications.
- **The older main window** (`MainForm`):
  - its own path composition;
  - the extension-to-`ImageFormat` table;
  - the preselected extension;
  - the filename format read from the registry, with its fallback;
  - its save with no overwrite question.
- **The context-menu registration** (`RegistryUtil`):
  - opening the three class keys;
  - registration check, registration and unregistration;
  - the dark-mode probe.

  All of it runs against a model of the per-user registry hive (`Registry`).

Supporting modules:

- **FileSystem:** a map from paths to files and directories, plus a set of
  paths the user may not write. It has `Path.Combine` with the .NET Framework
  rooting rule.
- **Strings:** .NET `Trim` and its white-space set, invariant lower-casing,
  and `EndsWith`.
- **ClipboardModel:** text takes precedence over an image.
- **Formats:** the extension lists and the extension-to-`ImageFormat` table. The
  bitmap entry is spelt "bpm", as the program spells it.

Outside effects are inputs:

- the user's answers to message boxes;
- the time of each clipboard read;
- whether Shift is held;
- the resource strings used as menu titles;
- `String.Format` / `DateTime.ToString` rendering of the filename (a
  function argument);
- `Uri.IsWellFormedUriString` (a predicate argument).

Errors surface the way each .NET API reports them. The file API raises an
access error for a protected path, and both windows answer it by restarting
elevated. GDI+'s `Image.Save` reports the same refusal as a generic error,
so a protected image target is a plain failure.

Where one might expect otherwise, the model follows the code:

- The debounce compares each clipboard notification with the previous
  **read**, not with the previous accepted change (Dialog.cs:163-167).
  `ContinuousMode.DebounceMeasuresFromLastRead` exhibits the difference.
- A notification exactly 100 ms after the previous one is ignored, because
  the test is a strict `> 100`.
- Saves triggered in continuous mode still ask before overwriting an
  existing file (Dialog.cs:200-207). The answer is an input.
- The save counter is a C# `int` that wraps around (`Dialog.Inc32`).
- Unregistration that meets a missing entry stops with an exception part-way
  through. `RegistryUtil.UnRegisterApp` returns that partial state.

## Model

| member | source | states |
|---|---|---|
| Strings.Trim | PasteIntoFile/Dialog.cs:224 | The result is the input with its leading and trailing .NET white space removed: a contiguous slice with no blank edge, where everything cut off is white space. |
| Strings.TrimIdempotent | PasteIntoFile/Dialog.cs:224-233 | Trimming an already trimmed URL text changes nothing. |
| Strings.ToLowerInvariant | PasteIntoFile/Dialog.cs:193 | Same length; every upper-case letter becomes its lower-case form and every other character is kept. |
| Strings.LowerIsLower | PasteIntoFile/Dialog.cs:193 | A lower-cased extension is lower-case, so lower-casing it again is the identity. |
| Strings.DecimalZero | PasteIntoFile/RegistryUtil.cs:39 | The decimal rendering of a DWORD is "0" exactly when the number is zero. |
| Formats.ImageFormatFor | PasteIntoFile/Dialog.cs:247-257 | Every listed extension selects the `ImageFormat` it names; any other extension selects Png. |
| Formats.ImageFormatRoundTrip | PasteIntoFile/frmMain.cs:145-155 | Each `ImageFormat`'s list entry maps back to that format, so every format is reachable. |
| Formats.PngIsTheDefault | PasteIntoFile/frmMain.cs:154 | Png is chosen exactly for "png" and for every unlisted extension. |
| Formats.ImageFormatForInjective | PasteIntoFile/Dialog.cs:249-256 | No two listed extensions select the same `ImageFormat`. |
| ClipboardModel.Classify | PasteIntoFile/Dialog.cs:128-157 | Text is taken whenever the clipboard has text; an image only when there is no text; otherwise nothing. |
| FileSystem.CreateDirectory | PasteIntoFile/Dialog.cs:217 | Succeeds exactly when no file occupies the path and the directory exists or may be created; only that path changes. |
| FileSystem.WriteFile | PasteIntoFile/Dialog.cs:238-259 | Succeeds exactly when the containing directory exists and the path is writable and not a directory; the path then holds the content and nothing else changes. A missing directory is a generic error; a refused path is an access error through the file API but a generic error through GDI+. |
| FileSystem.Combine | PasteIntoFile/Dialog.cs:197 | A rooted name, or an empty directory, gives the name alone; an empty name gives the directory. Otherwise, for a non-empty name, the result is the directory followed by the name, either directly or with one backslash between; they are joined directly exactly when the directory ends in a separator or a drive colon. |
| Dialog.Inc32 | PasteIntoFile/Dialog.cs:271 | The counter goes up by one and wraps from the largest int to the smallest. |
| Dialog.ChooseExtension | PasteIntoFile/Dialog.cs:134-152 | Text: the stored text extension, or "txt" when none is stored. Image: the stored image extension when the list offers it, else "png", so always a listed entry. Empty clipboard: unchanged. |
| Dialog.ReadClipboard | PasteIntoFile/Dialog.cs:117-159 | Stamps the read time, replaces the content by the classified clipboard, sets the extension by the text-or-image rule of `ChooseExtension`, reports found exactly when there is text or an image, and touches nothing but content, extension and timestamp. |
| Dialog.UpdateFilename | PasteIntoFile/Dialog.cs:105-115 | Only the filename changes: to the rendered template, or to the fixed fallback name when rendering fails. |
| Dialog.UpdateSaveButton | PasteIntoFile/Dialog.cs:175-179 | Afterwards the save button and filename box are disabled exactly while armed, and the caption shows the count while armed; nothing else changes. |
| Dialog.ComposeFilename | PasteIntoFile/Dialog.cs:193-196 | The name is the filename itself or the filename plus "." and the lower-cased extension. It grows exactly when the extension is not blank and not already the ending; with a non-blank extension it always ends in it. |
| Dialog.ShortcutLines | PasteIntoFile/Dialog.cs:231-234 | Exactly two lines: the "[InternetShortcut]" header, then "URL=" followed by the trimmed text. |
| Dialog.FailureOutcome | PasteIntoFile/Dialog.cs:275-285 | Access denied, and only that, requests an elevated restart at the location; no exception yields a path. |
| Dialog.Write | PasteIntoFile/Dialog.cs:238-283 | The write succeeds exactly when the location exists and the target is writable and not a directory. On success: the file holds the content, the counter goes up once, and the clipboard is cleared if the setting asks. On failure: state and files are unchanged, and an elevated restart at the location is asked for exactly when the file API refused the write. |
| Dialog.Save | PasteIntoFile/Dialog.cs:189-286 | Overwrite declined exactly when a file exists and the answer is No; directory target exactly when a directory is there (both change nothing). Only a save returns a path, and it bumps the counter. An elevated restart is at the location, and for an image only when the location itself could not be created. Only the location and target may change on disk. |
| Dialog.ReturnedPath | PasteIntoFile/Dialog.cs:272-285 | A path is returned exactly for a successful save, and it is the path that was written; every other ending returns null. |
| Dialog.ClipboardChanged | PasteIntoFile/Dialog.cs:161-173 | Every notification re-reads the clipboard. A save is attempted exactly when armed and the notification is more than 100 ms after the previous read. An attempt is exactly `Save` of the re-read state with the freshly rendered name, against the new clipboard, and the world afterwards is the one that save leaves. The mode never changes, the counter moves only on a save, and the controls stay consistent. |
| Dialog.ToggleContinuousMode | PasteIntoFile/Dialog.cs:318-335 | Armed exactly when checked and not cancelled; a save is attempted exactly on Yes, and it is `Save` of the dialog with a freshly rendered name, whose outcome and world are the result; the controls are left consistent with the mode. |
| Dialog.Launched | PasteIntoFile/Dialog.cs:56-65 | The state filled in at launch holds the classified clipboard, the extension chosen from an empty box, the name rendered at the launch time with counter 0, continuous mode off and consistent controls. |
| Dialog.Open | PasteIntoFile/Dialog.cs:23-99 | Exit code 1 exactly on an empty clipboard, with the registry and the world untouched. Exit code 0 exactly when an autosave was due and the save of the launched state succeeded; whenever an autosave is due, the world afterwards is the one that save leaves. An open window always shows the launched state, since a failed autosave leaves it as it was, and reports the outcome of the autosave it attempted, including an elevated restart, and none when forced open or autosave is off, in which case it touched no file. The registration check has added the class keys and nothing else, and the checkbox shows the registration state. |
| DialogProperties.RenderingForgetsOldName | PasteIntoFile/Dialog.cs:101-115 | The rendered filename does not depend on the name it replaces, so rendering twice equals rendering once. |
| DialogProperties.ComposeIdempotent | PasteIntoFile/Dialog.cs:193-196 | Composing a composed name again changes nothing. |
| DialogProperties.DeclinedOverwriteChangesNothing | PasteIntoFile/Dialog.cs:200-207 | Answering No to the overwrite question leaves dialog and disk exactly as they were. |
| DialogProperties.DirectoryTargetAborts | PasteIntoFile/Dialog.cs:208-213 | A directory at the target aborts with nothing changed, whatever the answer. |
| DialogProperties.UrlShortcut | PasteIntoFile/Dialog.cs:223-234 | Saving text as "url": a malformed URI writes no file. A saved shortcut holds exactly the header and the trimmed URL. |
| DialogProperties.RefusedTargetByWriter | PasteIntoFile/Dialog.cs:231-283 | A target the OS refuses gives an elevated restart at the location for text, but a plain failure for an image. |
| DialogProperties.PlainTextVerbatim | PasteIntoFile/Dialog.cs:237-238 | Text under any other extension is written unchanged. |
| DialogProperties.ImageEncodedByExtension | PasteIntoFile/Dialog.cs:244-259 | A saved image is tagged with the `ImageFormat` its lower-cased extension selects. |
| DialogProperties.NoContentNeverSaves | PasteIntoFile/Dialog.cs:261-264 | An empty clipboard never produces a file. |
| DialogProperties.FreeTargetIsSaved | PasteIntoFile/Dialog.cs:199-272 | Encodable content aimed at a writable target in an existing location is saved and counted, both when the target is free and when it is an existing file the user agreed to overwrite. |
| ContinuousMode.RunKeepsMode | PasteIntoFile/Dialog.cs:161-173 | No sequence of notifications arms or disarms the dialog. |
| ContinuousMode.RunMatchesDebounce | PasteIntoFile/Dialog.cs:163-167 | Over a session, an armed dialog attempts exactly as many saves as there are notifications more than 100 ms after their predecessor; a disarmed one attempts none. |
| ContinuousMode.RunCountsSaves | PasteIntoFile/Dialog.cs:167-171 | Over a session, the counter advances once per successful save, with int wrap-around. |
| ContinuousMode.RunRefreshesTimestamp | PasteIntoFile/Dialog.cs:161-164 | After a session, the read time is that of the last notification, whether or not it was ignored. |
| ContinuousMode.RunKeepsView | PasteIntoFile/Dialog.cs:169-179 | Controls consistent with the mode stay consistent through any session. |
| ContinuousMode.DebounceExample | PasteIntoFile/Dialog.cs:166-167 | Two notifications 50 ms apart give one save attempt; 150 ms apart they give two. |
| ContinuousMode.DebounceMeasuresFromLastRead | PasteIntoFile/Dialog.cs:163-164 | Three notifications 60 ms apart give only one attempt, although the third comes more than 100 ms after the saved one. |
| MainForm.JoinLocation | PasteIntoFile/frmMain.cs:133-134 | The directory part always ends in a backslash. It is the location plus at most one character, and equals the location exactly when that already ends in a backslash. |
| MainForm.SuffixExtension | PasteIntoFile/frmMain.cs:135 | The name is the filename, or the filename followed by "." and the extension text exactly as typed; it is the filename exactly when that already has the ending, so it always ends in it. |
| MainForm.SuffixIdempotent | PasteIntoFile/frmMain.cs:135 | Suffixing a suffixed name again changes nothing. |
| MainForm.JoinIdempotent | PasteIntoFile/frmMain.cs:134 | Joining an already joined location again changes nothing. |
| MainForm.MainTargetPath | PasteIntoFile/frmMain.cs:133-135 | The target is the location joined with a backslash only when one is missing, followed by the suffixed filename; so it strictly extends the location and ends in "." plus the extension text. |
| MainForm.MainSave | PasteIntoFile/frmMain.cs:130-177 | Written exactly when there is content, the location exists, and the target is writable and not a directory. Text is written as is; an image tagged with the `ImageFormat` its extension selects. An elevated restart at the location happens exactly for text refused at an existing location. Failure changes nothing. The clipboard is cleared only after a write. |
| MainForm.MissingLocationDiffers | PasteIntoFile/frmMain.cs:130-174 | Where the location does not exist, the window fails and changes nothing, while the dialog creates it and saves to the same path. |
| MainForm.MainSaveOverwritesSilently | PasteIntoFile/frmMain.cs:136-140 | An existing file is overwritten without a question, where the dialog, answered No, declines. |
| MainForm.MainDefaultExtension | PasteIntoFile/frmMain.cs:65-92 | Text preselects one of the window's text extensions; an image preselects "png", a listed entry that selects Png; an empty clipboard leaves the box empty. |
| MainForm.FilenameFormat | PasteIntoFile/frmMain.cs:57-58 | The cast fails exactly for a stored number; a stored string is returned as it is, and a format other than the default must be a stored string. |
| MainForm.FilenameFormatFallback | PasteIntoFile/frmMain.cs:57-58 | A missing key or missing value gives the default format; a stored string is used as is. |
| MainForm.OpenMain | PasteIntoFile/frmMain.cs:23-113 | Crashes exactly on a stored number or on a format the date rendering rejects. Otherwise: the filename is the current time in the stored or default format, the location falls back to the desktop, content and extension come from the clipboard, and it autosaves exactly when autosave is on and Shift is not held. The autosave is `MainSave` of exactly the state the window was filled with, whatever its outcome. |
| MainForm.AgreesWithDialogPath | PasteIntoFile/frmMain.cs:133-135 | For a lower-case, non-blank extension and an ordinary location, the window and the dialog target the same path. |
| MainForm.UpperCaseExtensionDiffers | PasteIntoFile/frmMain.cs:135 | An extension with an upper-case letter gives the window and the dialog different path strings. |
| MainForm.EmptyExtensionDiffers | PasteIntoFile/frmMain.cs:135 | With an empty extension the window still appends a dot, while the dialog keeps the bare filename. |
| MainForm.DriveLocationDiffers | PasteIntoFile/frmMain.cs:134 | For a location ending in a drive colon, the window writes to the drive's root, while `Path.Combine` attaches the name to the drive and so names the drive's current directory. |
| Registry.CreateSubKey | PasteIntoFile/RegistryUtil.cs:24 | Afterwards the key and all its parents exist; no other key appears, values are untouched, and well-formedness is kept. |
| Registry.SetValue | PasteIntoFile/RegistryUtil.cs:83 | The named value holds the new data; every other value and every key are unchanged. |
| Registry.DeleteSubKeyTree | PasteIntoFile/RegistryUtil.cs:70 | Fails exactly when the key is missing. Otherwise exactly the keys and values below it disappear and the rest are kept. |
| Registry.GetValue | PasteIntoFile/RegistryUtil.cs:38 | A missing key gives null, a missing value the default, and a stored value itself. |
| RegistryUtil.ClassKeys | PasteIntoFile/RegistryUtil.cs:26-29 | "Directory" gives the two directory shell keys; "*" gives the any-file shell key; no kind gives all three. |
| RegistryUtil.OpenClassKeys | PasteIntoFile/RegistryUtil.cs:23-31 | Afterwards the requested class keys and their parents exist; nothing else is created and no value changes. |
| RegistryUtil.IsAppRegistered | PasteIntoFile/RegistryUtil.cs:54-61 | Registered exactly when every one of the three class keys has the program's entry; the check itself only creates class keys. |
| RegistryUtil.DeletingOneEntryUnregisters | PasteIntoFile/RegistryUtil.cs:56-58 | Removing the entry under any single class key makes the check report unregistered. |
| RegistryUtil.CommandLine | PasteIntoFile/RegistryUtil.cs:86 | The command starts with the quoted executable and a space, ends with the verb and the quoted "%V" placeholder, and has nothing else in between. |
| RegistryUtil.RegisterEntry | PasteIntoFile/RegistryUtil.cs:82-86 | One class key gains its entry (title and icon) and command key (command line), merged over the existing values. |
| RegistryUtil.RegisterApp | PasteIntoFile/RegistryUtil.cs:77-101 | The new keys are exactly the entries, command keys and their parents. The values are the old ones overlaid with the entry values; well-formedness is kept. |
| RegistryUtil.RegisterRegisters | PasteIntoFile/RegistryUtil.cs:77-101 | After registering, the registration check reports registered. |
| RegistryUtil.CommandTargets | PasteIntoFile/RegistryUtil.cs:86-97 | Both directory commands run "paste" on the clicked folder; the any-file command runs "copy". |
| RegistryUtil.RegisterIdempotent | PasteIntoFile/RegistryUtil.cs:77-101 | Registering twice gives the same registry as registering once. |
| RegistryUtil.DeleteAll | PasteIntoFile/RegistryUtil.cs:68-71 | Completes exactly when every entry is present. Only keys and values under those entries are removed; on completion none remain. |
| RegistryUtil.UnRegisterApp | PasteIntoFile/RegistryUtil.cs:66-72 | Completes exactly when the program was registered; well-formedness is kept. |
| RegistryUtil.UnregisterKeys | PasteIntoFile/RegistryUtil.cs:66-72 | Keys afterwards come from before or are class keys. Keys outside the entries survive; on completion no key under an entry remains. |
| RegistryUtil.UnregisterValues | PasteIntoFile/RegistryUtil.cs:66-72 | Values outside the entries survive unchanged; on completion no value under an entry remains. |
| RegistryUtil.UnregisterLeavesUnregistered | PasteIntoFile/RegistryUtil.cs:66-72 | A completed unregistration leaves the program unregistered. |
| RegistryUtil.RegisterThenUnregister | PasteIntoFile/RegistryUtil.cs:66-99 | On a registry with nothing under the entries, registering then unregistering completes and gives back the registry with only the class keys opened. |
| RegistryUtil.DarkModeFrom | PasteIntoFile/RegistryUtil.cs:36-46 | Dark exactly when the read returned the string "0" or the number 0; a missing key or an exception gives light. |
| RegistryUtil.IsDarkMode | PasteIntoFile/RegistryUtil.cs:34-47 | Dark exactly when the theme key exists and stores AppsUseLightTheme as "0" or 0; a missing value counts as light. |

## Left out

- Strings.ToLowerInvariant: maps only ASCII capitals. The invariant culture's full Unicode case table is not modelled.
- Strings.EndsWith: compares ordinally. The culture-sensitive comparison of `String.EndsWith(string)` differs only for ignorable or combining characters, which are not modelled.
- Dialog.Save: the location is used as typed. `Path.GetFullPath` normalisation, and its exceptions for invalid characters, are not modelled.
- FileSystem.Combine: the `ArgumentException` for invalid path characters is not modelled.
- FileSystem.CreateDirectory: creates only the location itself. Missing ancestor directories of the location are not tracked.
- FileSystem.WriteFile: the file's containing directory is the location it was composed with. A filename with its own separators that names a missing subdirectory is not modelled.
- Dialog.Save: paths are compared as exact strings, while Windows file names are case-insensitive. A file whose name differs from the target only in case is not found by the overwrite and directory checks. MainForm.MainSave has the same limit.
- Dialog.Write: `Clipboard.Clear` always succeeds. A clipboard failure after the file is written, which would skip the counter, is not modelled.
- MainForm.MainDefaultExtension: the regular-expression guess for HTML and JSON is an input (`TextGuess`), because .NET regex matching is not modelled.
- Dialog.UpdateFilename: template rendering through `String.Format` is a function parameter that may fail. MainForm.OpenMain likewise takes `DateTime.ToString` rendering as a parameter; there a failure crashes the window.
- DialogProperties.UrlShortcut: `Uri.IsWellFormedUriString` is a predicate parameter.
- Dialog.ReadClipboard: clipboard read failures are not modelled. `Clipboard.ContainsText`, `GetText` and `GetImage` are called outside any try block, so a clipboard held by another process (an `ExternalException`) crashes the constructor or the change handler; `Classify` always succeeds.
- Dialog.ReadClipboard: on an empty clipboard the extension text is kept. What the combo box shows after `Items.Clear()` depends on its drop-down style, and that is not modelled.
- Registry key names are compared case-sensitively. Only string and DWORD values exist.
- Registry access errors (a `SecurityException` from `CreateSubKey` or `SetValue`) are not modelled. `IsAppRegistered`'s null check never fires, because `CreateSubKey` always returns a key.
- The executable path and the localized menu titles are parameters of `RegisterApp`.
- Encoding: text is written as the character sequence, without the UTF-8 byte order mark or line terminators. Images are opaque values tagged with the `ImageFormat` requested; pixel encoding is not modelled.
- Formats.ImageFormatFor: the model records the requested `ImageFormat`. GDI+ has no encoder for Icon, Emf or Wmf, and `Image.Save` then falls back to the PNG encoder, so "ico", "emf" and "wmf" files hold PNG data; that fallback is not modelled.
- Windows Forms widgets, message-box texts, balloons, dark-theme colouring, `ExplorerUtil.RequestFilenameEdit`, the elevated restart itself and `Environment.Exit` are not modelled. Their decisions appear as outcomes.
- The dialog constructor's dark-mode query only sets colours, so `Dialog.Open` does not make it.
- Settings persistence (the checkbox handlers that write `Settings.Default`) is not modelled. Settings are a read-only input.

=== FILE: clipboard.dfy ===
/** The system clipboard as an input value, and the dialog's classification of
    it into the content to save (Dialog.cs:117-158). */
module ClipboardModel {
  import opened Wrappers

  /** A raster image; pixel data is carried but never interpreted. */
  datatype Image = Image(width: nat, height: nat, pixels: seq<int>)

  /** What `Clipboard.ContainsText`/`GetText` and `ContainsImage`/`GetImage`
      would report at one instant. */
  datatype Clipboard = Clipboard(text: Option<string>, image: Option<Image>)

  /** The clipboard after `Clipboard.Clear()`. */
  const Cleared: Clipboard := Clipboard(None, None)

  /** The content one read keeps: the dialog's `text`/`image` fields, of which
      at most one is non-null. */
  datatype Snapshot = TextContent(text: string) | ImageContent(image: Image) | NoContent

  /** Text takes precedence over an image; neither is `NoContent`. */
  function Classify(c: Clipboard): (s: Snapshot)
    ensures s.TextContent? <==> c.text.Some?
    ensures s.TextContent? ==> s.text == c.text.value
    ensures s.ImageContent? <==> c.text.None? && c.image.Some?
    ensures s.ImageContent? ==> s.image == c.image.value
  {
    if c.text.Some? then TextContent(c.text.value)
    else if c.image.Some? then ImageContent(c.image.value)
    else NoContent
  }
}

=== FILE: continuous_mode.dfy ===
/** Continuous mode over a whole session: a sequence of clipboard change
    notifications fed to `ClipboardChanged` (Dialog.cs:161-173), compared
    with an independent count of the notifications that clear the debounce. */
module ContinuousMode {
  import opened Wrappers
  import opened Dialog

  datatype Trace = Trace(state: DialogState, world: World, outcomes: seq<SaveOutcome>)

  function Attempts(a: Option<SaveOutcome>): seq<SaveOutcome> {
    if a.Some? then [a.value] else []
  }

  /** The dialog after handling `events` in order, with the outcome of every
      save the notifications triggered. */
  function Run(s: DialogState, w: World, events: seq<ChangeEvent>, settings: Settings, env: Env): (r: Trace)
    decreases |events|
  {
    if |events| == 0 then Trace(s, w, [])
    else
      var st := ClipboardChanged(s, w, events[0], settings, env);
      var rest := Run(st.state, st.world, events[1..], settings, env);
      Trace(rest.state, rest.world, Attempts(st.attempt) + rest.outcomes)
  }

  /** Reference count: the notifications more than 100 ms after the one
      before them (the first one is measured from `previous`). */
  function AcceptedCount(previous: Ticks, events: seq<ChangeEvent>): nat
    decreases |events|
  {
    if |events| == 0 then 0
    else (if BeyondDebounce(previous, events[0].time) then 1 else 0) + AcceptedCount(events[0].time, events[1..])
  }

  function SavedCount(outcomes: seq<SaveOutcome>): nat
    decreases |outcomes|
  {
    if |outcomes| == 0 then 0
    else (if outcomes[0].Saved? then 1 else 0) + SavedCount(outcomes[1..])
  }

  /** `n` unchecked increments. */
  function IncBy(x: Int32, n: nat): Int32
    decreases n
  {
    if n == 0 then x else IncBy(Inc32(x), n - 1)
  }

  /** Handling one notification and then the rest is the whole run. */
  lemma RunStep(s: DialogState, w: World, events: seq<ChangeEvent>, settings: Settings, env: Env)
    requires |events| > 0
    ensures var st := ClipboardChanged(s, w, events[0], settings, env);
      Run(s, w, events, settings, env).outcomes
        == Attempts(st.attempt) + Run(st.state, st.world, events[1..], settings, env).outcomes
    ensures var st := ClipboardChanged(s, w, events[0], settings, env);
      Run(s, w, events, settings, env).state == Run(st.state, st.world, events[1..], settings, env).state
  {
  }

  /** Notifications never arm or disarm the dialog. */
  lemma {:induction false} RunKeepsMode(s: DialogState, w: World, events: seq<ChangeEvent>, settings: Settings, env: Env)
    ensures Run(s, w, events, settings, env).state.continuousMode == s.continuousMode
    decreases |events|
  {
    if |events| > 0 {
      var st := ClipboardChanged(s, w, events[0], settings, env);
      RunStep(s, w, events, settings, env);
      RunKeepsMode(st.state, st.world, events[1..], settings, env);
    }
  }

  /** An armed dialog tries exactly one save per notification that clears the
      debounce measured from the previous read; a disarmed one tries none. */
  lemma {:induction false} RunMatchesDebounce(s: DialogState, w: World, events: seq<ChangeEvent>,
                                              settings: Settings, env: Env)
    ensures |Run(s, w, events, settings, env).outcomes|
      == if s.continuousMode then AcceptedCount(s.clipboardTimestamp, events) else 0
    decreases |events|
  {
    if |events| > 0 {
      var st := ClipboardChanged(s, w, events[0], settings, env);
      RunStep(s, w, events, settings, env);
      RunMatchesDebounce(st.state, st.world, events[1..], settings, env);
    }
  }

  lemma {:induction false} SavedCountAppend(a: seq<SaveOutcome>, b: seq<SaveOutcome>)
    ensures SavedCount(a + b) == SavedCount(a) + SavedCount(b)
    decreases |a|
  {
    if |a| > 0 {
      assert (a + b)[1..] == a[1..] + b;
      SavedCountAppend(a[1..], b);
    } else {
      assert a + b == b;
    }
  }

  /** What one notification does to the counter, in terms of `SavedCount`. */
  lemma StepCountsSave(s: DialogState, w: World, ev: ChangeEvent, settings: Settings, env: Env)
    ensures var st := ClipboardChanged(s, w, ev, settings, env);
      st.state.saveCount == IncBy(s.saveCount, SavedCount(Attempts(st.attempt)))
  {
    var st := ClipboardChanged(s, w, ev, settings, env);
    var a := Attempts(st.attempt);
    if st.attempt.Some? {
      assert a[1..] == [];
    }
  }

  lemma {:induction false} IncByAdd(x: Int32, m: nat, n: nat)
    ensures IncBy(IncBy(x, m), n) == IncBy(x, m + n)
    decreases m
  {
    if m > 0 {
      IncByAdd(Inc32(x), m - 1, n);
    }
  }

  /** Counting the saves of two stretches of a session one after the other. */
  lemma CountsCompose(x: Int32, y: Int32, z: Int32, a: seq<SaveOutcome>, b: seq<SaveOutcome>)
    requires y == IncBy(x, SavedCount(a)) && z == IncBy(y, SavedCount(b))
    ensures z == IncBy(x, SavedCount(a + b))
  {
    SavedCountAppend(a, b);
    IncByAdd(x, SavedCount(a), SavedCount(b));
  }

  /** The counter advances once per successful save, wrapping like a C# int. */
  lemma {:induction false} RunCountsSaves(s: DialogState, w: World, events: seq<ChangeEvent>, settings: Settings, env: Env)
    ensures Run(s, w, events, settings, env).state.saveCount
      == IncBy(s.saveCount, SavedCount(Run(s, w, events, settings, env).outcomes))
    decreases |events|
  {
    if |events| > 0 {
      var st := ClipboardChanged(s, w, events[0], settings, env);
      var rest := Run(st.state, st.world, events[1..], settings, env);
      RunStep(s, w, events, settings, env);
      RunCountsSaves(st.state, st.world, events[1..], settings, env);
      StepCountsSave(s, w, events[0], settings, env);
      CountsCompose(s.saveCount, st.state.saveCount, rest.state.saveCount, Attempts(st.attempt), rest.outcomes);
    }
  }

  /** The last read time is that of the last notification, ignored or not. */
  lemma {:induction false} RunRefreshesTimestamp(s: DialogState, w: World, events: seq<ChangeEvent>, settings: Settings, env: Env)
    requires |events| > 0
    ensures Run(s, w, events, settings, env).state.clipboardTimestamp == events[|events| - 1].time
    decreases |events|
  {
    var st := ClipboardChanged(s, w, events[0], settings, env);
    RunStep(s, w, events, settings, env);
    if |events| > 1 {
      RunRefreshesTimestamp(st.state, st.world, events[1..], settings, env);
      assert events[1..][|events[1..]| - 1] == events[|events| - 1];
    }
  }

  /** The save button and filename box stay disabled exactly while armed. */
  lemma {:induction false} RunKeepsView(s: DialogState, w: World, events: seq<ChangeEvent>, settings: Settings, env: Env)
    requires ViewConsistent(s)
    ensures ViewConsistent(Run(s, w, events, settings, env).state)
    decreases |events|
  {
    if |events| > 0 {
      var st := ClipboardChanged(s, w, events[0], settings, env);
      RunStep(s, w, events, settings, env);
      RunKeepsView(st.state, st.world, events[1..], settings, env);
    }
  }

  const Ms: int := TicksPerMillisecond

  /** Two notifications 50 ms apart, the first clearing the debounce, trigger
      exactly one save; 150 ms apart they trigger two. */
  lemma DebounceExample(s: DialogState, w: World, events: seq<ChangeEvent>, settings: Settings, env: Env)
    requires s.continuousMode && |events| == 2
    requires events[0].time == s.clipboardTimestamp + 200 * Ms
    requires events[1].time == events[0].time + 50 * Ms || events[1].time == events[0].time + 150 * Ms
    ensures |Run(s, w, events, settings, env).outcomes| == if events[1].time == events[0].time + 50 * Ms then 1 else 2
  {
    RunMatchesDebounce(s, w, events, settings, env);
    var t := s.clipboardTimestamp;
    var e1 := events[1..];
    assert e1[1..] == [] && e1[0] == events[1];
    assert AcceptedCount(events[1].time, e1[1..]) == 0;
    assert AcceptedCount(events[0].time, e1) == if BeyondDebounce(events[0].time, events[1].time) then 1 else 0;
    assert AcceptedCount(t, events) == 1 + AcceptedCount(events[0].time, e1);
  }

  /** The debounce is measured from the previous read, not from the previous
      save: three notifications 60 ms apart save only once, although the
      third comes 120 ms after the one that was saved. */
  lemma DebounceMeasuresFromLastRead(s: DialogState, w: World, events: seq<ChangeEvent>, settings: Settings, env: Env)
    requires s.continuousMode && |events| == 3
    requires events[0].time == s.clipboardTimestamp + 200 * Ms
    requires events[1].time == events[0].time + 60 * Ms && events[2].time == events[1].time + 60 * Ms
    ensures |Run(s, w, events, settings, env).outcomes| == 1
    ensures events[2].time - events[0].time > DebounceMilliseconds * Ms
  {
    RunMatchesDebounce(s, w, events, settings, env);
    var t := s.clipboardTimestamp;
    var e1 := events[1..];
    var e2 := e1[1..];
    assert e2[1..] == [] && e1[0] == events[1] && e2[0] == events[2];
    assert AcceptedCount(events[2].time, e2[1..]) == 0;
    assert AcceptedCount(events[1].time, e2) == 0;
    assert AcceptedCount(events[0].time, e1) == 0;
    assert AcceptedCount(t, events) == 1 + AcceptedCount(events[0].time, e1);
  }
}

=== FILE: dialog.dfy ===
/** The paste dialog (Dialog.cs): reading the clipboard, choosing the
    extension, composing the target name, the save decision itself, and the
    continuous-mode state machine. Windows Forms controls become fields of
    `DialogState`; message-box answers become inputs. */
module Dialog {
  import opened Wrappers
  import opened Strings
  import opened Formats
  import opened ClipboardModel
  import opened FileSystem
  import Registry
  import RegistryUtil

  /** C# `int`, the type of the save counter. */
  type Int32 = x: int | -0x8000_0000 <= x <= 0x7FFF_FFFF

  /** `saveCount++` in an unchecked context: wraps at the top of the range. */
  function Inc32(x: Int32): (y: Int32)
    ensures x < 0x7FFF_FFFF ==> y == x + 1
    ensures x == 0x7FFF_FFFF ==> y == -0x8000_0000
    ensures y != x
  {
    if x == 0x7FFF_FFFF then -0x8000_0000 else x + 1
  }

  /** `DateTime` instants, in 100-nanosecond ticks. */
  type Ticks = int

  const TicksPerMillisecond: int := 10_000

  /** Clipboard updates closer than this to the previous read are ignored. */
  const DebounceMilliseconds: int := 100

  /** `(current - previous).TotalMilliseconds > 100`. */
  predicate BeyondDebounce(previous: Ticks, current: Ticks) {
    current - previous > DebounceMilliseconds * TicksPerMillisecond
  }

  /** The persisted user settings the dialog reads (`Settings.Default`). */
  datatype Settings = Settings(
    filenameTemplate: string,
    extensionText: Option<string>,
    extensionImage: Option<string>,
    clrClipboard: bool,
    autoSave: bool)

  /** Library behaviour the model does not interpret: `String.Format` of the
      filename template with the timestamp and counter (None for a
      `FormatException`), and `Uri.IsWellFormedUriString(_, RelativeOrAbsolute)`. */
  datatype Env = Env(
    formatTemplate: (string, Ticks, int) -> Option<string>,
    isWellFormedUri: string -> bool)

  /** The name shown when the template cannot be rendered. */
  const InvalidTemplateName: string := "filename_template_invalid"

  datatype Caption = SaveCaption | SavedCountCaption(count: int)

  /** Enabled state of the save button and filename box, and the button text. */
  datatype Controls = Controls(saveEnabled: bool, filenameEnabled: bool, caption: Caption)

  datatype DialogState = DialogState(
    content: Snapshot,          // the `text` / `image` fields
    ext: string,                // the extension box's text
    filename: string,           // the filename box's text
    location: Path,             // the location box's text
    continuousMode: bool,
    saveCount: Int32,
    clipboardTimestamp: Ticks,  // time of the latest clipboard read
    controls: Controls)

  datatype World = World(fs: FileSystem, clipboard: Clipboard)

  /** How `save()` ended. Only `Saved` returns a path; the others return null.
      `AccessDenied` also asks for an elevated restart at `restartLocation`. */
  datatype SaveOutcome =
    | Saved(path: Path)
    | OverwriteDeclined
    | TargetIsDirectory
    | NotAUri
    | NothingToSave
    | AccessDenied(restartLocation: Path)
    | Failed

  datatype Saving = Saving(state: DialogState, world: World, outcome: SaveOutcome)

  /** The extension box after a read: the stored text extension (or "txt")
      for text; for an image the stored image extension if the list offers
      it, else "png"; unchanged when the clipboard is empty. */
  function ChooseExtension(content: Snapshot, settings: Settings, current: string): (ext: string)
    ensures content.TextContent? && settings.extensionText.Some? ==> ext == settings.extensionText.value
    ensures content.TextContent? && settings.extensionText.None? ==> ext == "txt"
    ensures content.ImageContent? ==> ext in ImageExtensions
    ensures content.ImageContent? && settings.extensionImage.Some? && settings.extensionImage.value in ImageExtensions
      ==> ext == settings.extensionImage.value
    ensures content.ImageContent? && (settings.extensionImage.None? || settings.extensionImage.value !in ImageExtensions)
      ==> ext == "png"
    ensures content.NoContent? ==> ext == current
  {
    match content
    case TextContent(_) => settings.extensionText.GetOr("txt")
    case ImageContent(_) =>
      if settings.extensionImage.Some? && settings.extensionImage.value in ImageExtensions
      then settings.extensionImage.value else "png"
    case NoContent => current
  }

  datatype Reading = Reading(state: DialogState, found: bool)

  /** `readClipboard()`: stamps the read time, replaces the content by the
      classified clipboard and picks the extension; reports whether there was
      anything to save. */
  function ReadClipboard(s: DialogState, clip: Clipboard, now: Ticks, settings: Settings): (r: Reading)
    ensures r.state.clipboardTimestamp == now
    ensures r.state.content == Classify(clip)
    ensures r.state.ext == ChooseExtension(Classify(clip), settings, s.ext)
    ensures r.found <==> clip.text.Some? || clip.image.Some?
    ensures r.state == s.(content := r.state.content, ext := r.state.ext, clipboardTimestamp := now)
  {
    var content := Classify(clip);
    Reading(s.(content := content, ext := ChooseExtension(content, settings, s.ext), clipboardTimestamp := now),
            !content.NoContent?)
  }

  /** `updateFilename()`: the template rendered with the read time and the
      counter, or the fixed fallback name when rendering fails. */
  function UpdateFilename(s: DialogState, settings: Settings, env: Env): (r: DialogState)
    ensures r == s.(filename := r.filename)
    ensures env.formatTemplate(settings.filenameTemplate, s.clipboardTimestamp, s.saveCount).None?
      ==> r.filename == InvalidTemplateName
    ensures env.formatTemplate(settings.filenameTemplate, s.clipboardTimestamp, s.saveCount).Some?
      ==> r.filename == env.formatTemplate(settings.filenameTemplate, s.clipboardTimestamp, s.saveCount).value
  {
    s.(filename := env.formatTemplate(settings.filenameTemplate, s.clipboardTimestamp, s.saveCount).GetOr(InvalidTemplateName))
  }

  /** What `updateSavebutton()` shows for a mode and counter. */
  function ControlsFor(continuousMode: bool, saveCount: int): Controls {
    Controls(!continuousMode, !continuousMode,
             if continuousMode then SavedCountCaption(saveCount) else SaveCaption)
  }

  /** The controls agree with the mode: both disabled exactly while armed. */
  predicate ViewConsistent(s: DialogState) {
    s.controls == ControlsFor(s.continuousMode, s.saveCount)
  }

  /** `updateSavebutton()`. */
  function UpdateSaveButton(s: DialogState): (r: DialogState)
    ensures ViewConsistent(r)
    ensures r == s.(controls := r.controls)
  {
    s.(controls := ControlsFor(s.continuousMode, s.saveCount))
  }

  /** The file name `save()` writes to: the extension is lower-cased and
      appended with a dot unless it is blank or the name already carries it. */
  function ComposeFilename(filename: string, ext: string): (name: string)
    ensures name == filename || name == filename + "." + ToLowerInvariant(ext)
    ensures name != filename <==> !IsBlank(ext) && !EndsWith(filename, "." + ToLowerInvariant(ext))
    ensures !IsBlank(ext) ==> EndsWith(name, "." + ToLowerInvariant(ext))
  {
    var e := ToLowerInvariant(ext);
    LowerKeepsBlankness(ext);
    var name := if !IsBlank(e) && !EndsWith(filename, "." + e) then filename + "." + e else filename;
    assert name != filename ==> name[|name| - |"." + e|..] == "." + e;
    name
  }

  /** The full path `save()` targets. */
  function TargetPath(s: DialogState): Path {
    Combine(s.location, ComposeFilename(s.filename, s.ext))
  }

  /** The two lines of an Internet shortcut pointing at the trimmed text. */
  function ShortcutLines(text: string): (lines: seq<string>)
    ensures |lines| == 2 && lines[0] == "[InternetShortcut]"
    ensures |lines[1]| >= 4 && lines[1][..4] == "URL=" && lines[1][4..] == Trim(text)
  {
    ["[InternetShortcut]", "URL=" + Trim(text)]
  }

  /** The failure outcome for an exception raised inside `save()`. */
  function FailureOutcome(e: IoError, location: Path): (o: SaveOutcome)
    ensures o.AccessDenied? <==> e == IoError.AccessDenied
    ensures o.AccessDenied? ==> o.restartLocation == location
    ensures !o.Saved?
  {
    match e
    case AccessDenied => SaveOutcome.AccessDenied(location)
    case OtherIoError => Failed
  }

  /** The tail of `save()`: the write itself into the location, then
      clearing the clipboard and counting the save when the write went
      through. */
  function Write(s: DialogState, w: World, fs: FileSystem, file: Path, content: Content,
                 writer: Writer, settings: Settings): (r: Saving)
    ensures r.outcome.Saved? <==> DirectoryExists(fs, s.location) && file !in fs.locked && !DirectoryExists(fs, file)
    ensures r.outcome.Saved? ==> r.outcome.path == file && file in r.world.fs.nodes && r.world.fs.nodes[file] == File(content)
    ensures r.outcome.Saved? ==> r.state == s.(saveCount := Inc32(s.saveCount))
    ensures !r.outcome.Saved? ==> r.state == s && r.world.fs == fs && (r.outcome.AccessDenied? || r.outcome == Failed)
    ensures r.outcome.AccessDenied? <==> !r.outcome.Saved? && DirectoryExists(fs, s.location) && writer == FileApi
    ensures r.outcome.AccessDenied? ==> r.outcome.restartLocation == s.location
    ensures r.world.clipboard == if r.outcome.Saved? && settings.clrClipboard then Cleared else w.clipboard
    ensures SameExcept(fs, r.world.fs, {file})
  {
    match WriteFile(fs, s.location, file, content, writer)
    case Failure(e) => Saving(s, w.(fs := fs), FailureOutcome(e, s.location))
    case Success(fs2) =>
      var clip := if settings.clrClipboard then Cleared else w.clipboard;
      Saving(s.(saveCount := Inc32(s.saveCount)), World(fs2, clip), Saved(file))
  }

  /** `save()`: compose the target, ask before overwriting a file, refuse a
      directory, create the location, encode the content by extension, and on
      success clear the clipboard if configured and count the save.
      `overwrite` is the user's answer to the overwrite question. */
  function Save(s: DialogState, w: World, settings: Settings, env: Env, overwrite: bool): (r: Saving)
    ensures r.state == s.(saveCount := r.state.saveCount)
    ensures r.outcome.Saved? ==> r.state.saveCount == Inc32(s.saveCount)
    ensures !r.outcome.Saved? ==> r.state.saveCount == s.saveCount
    ensures r.outcome.Saved? ==> r.outcome.path == TargetPath(s) && FileExists(r.world.fs, TargetPath(s))
    ensures r.outcome == OverwriteDeclined <==> FileExists(w.fs, TargetPath(s)) && !overwrite
    ensures r.outcome == TargetIsDirectory <==> DirectoryExists(w.fs, TargetPath(s))
    ensures r.outcome in {OverwriteDeclined, TargetIsDirectory} ==> r.world == w
    ensures r.outcome == NothingToSave ==> s.content.NoContent?
    ensures r.outcome == NotAUri ==> s.content.TextContent? && ToLowerInvariant(s.ext) == "url"
    ensures r.outcome.AccessDenied? ==> r.outcome.restartLocation == s.location
    ensures r.outcome.AccessDenied? && !s.content.TextContent?
      ==> s.location in w.fs.locked && !DirectoryExists(w.fs, s.location)
    ensures r.world.clipboard == if r.outcome.Saved? && settings.clrClipboard then Cleared else w.clipboard
    ensures SameExcept(w.fs, r.world.fs, {s.location, TargetPath(s)})
  {
    var ext := ToLowerInvariant(s.ext);
    var file := TargetPath(s);
    if FileExists(w.fs, file) && !overwrite then
      Saving(s, w, OverwriteDeclined)
    else if !FileExists(w.fs, file) && DirectoryExists(w.fs, file) then
      Saving(s, w, TargetIsDirectory)
    else
      match CreateDirectory(w.fs, s.location)
      case Failure(e) => Saving(s, w, FailureOutcome(e, s.location))
      case Success(fs) =>
        match s.content
        case NoContent => Saving(s, w.(fs := fs), NothingToSave)
        case TextContent(text) =>
          if ext == "url" then
            if !env.isWellFormedUri(Trim(text)) then Saving(s, w.(fs := fs), NotAUri)
            else Write(s, w, fs, file, LinesFile(ShortcutLines(text)), FileApi, settings)
          else Write(s, w, fs, file, TextFile(text), FileApi, settings)
        case ImageContent(image) =>
          Write(s, w, fs, file, ImageFile(image, ImageFormatFor(ext)), Gdi, settings)
  }

  /** What `save()` returns: the path on success, null otherwise. */
  function ReturnedPath(o: SaveOutcome): (p: Option<Path>)
    ensures p.Some? <==> o.Saved?
    ensures p.Some? ==> p.value == o.path
  {
    if o.Saved? then Some(o.path) else None
  }

  /** One clipboard change notification: when it happened, what the clipboard
      then holds, and how the user would answer an overwrite question. */
  datatype ChangeEvent = ChangeEvent(time: Ticks, clipboard: Clipboard, overwrite: bool)

  datatype Step = Step(state: DialogState, world: World, attempt: Option<SaveOutcome>)

  /** `ClipboardChanged`: always re-read the clipboard (refreshing the
      timestamp); save only when armed and the read is more than 100 ms after
      the previous read. */
  function ClipboardChanged(s: DialogState, w: World, ev: ChangeEvent, settings: Settings, env: Env): (r: Step)
    ensures r.state.clipboardTimestamp == ev.time
    ensures r.state.content == Classify(ev.clipboard)
    ensures r.attempt.Some? <==> s.continuousMode && BeyondDebounce(s.clipboardTimestamp, ev.time)
    ensures r.state.continuousMode == s.continuousMode
    ensures r.attempt.None? ==> r.world == w.(clipboard := ev.clipboard) && r.state.saveCount == s.saveCount
    ensures r.state.saveCount == if r.attempt.Some? && r.attempt.value.Saved? then Inc32(s.saveCount) else s.saveCount
    ensures ViewConsistent(s) ==> ViewConsistent(r.state)
    ensures r.attempt.Some? ==>
      var sv := Save(UpdateFilename(ReadClipboard(s, ev.clipboard, ev.time, settings).state, settings, env),
                     w.(clipboard := ev.clipboard), settings, env, ev.overwrite);
      r.attempt.value == sv.outcome && r.world == sv.world
  {
    var w1 := w.(clipboard := ev.clipboard);
    var s1 := ReadClipboard(s, ev.clipboard, ev.time, settings).state;
    if s.continuousMode && BeyondDebounce(s.clipboardTimestamp, ev.time) then
      var sv := Save(UpdateFilename(s1, settings, env), w1, settings, env, ev.overwrite);
      Step(UpdateSaveButton(sv.state), sv.world, Some(sv.outcome))
    else
      Step(s1, w1, None)
  }

  /** Answer to "save the current clipboard now?" when arming. */
  datatype Answer = Yes | No | Cancel

  /** `chkContinuousMode_CheckedChanged`: when checked, Yes saves and arms,
      No arms without saving, Cancel unchecks and stays disarmed; unchecking
      disarms. The controls are refreshed in every case. */
  function ToggleContinuousMode(s: DialogState, w: World, checked: bool, answer: Answer,
                                overwrite: bool, settings: Settings, env: Env): (r: Step)
    ensures r.state.continuousMode <==> checked && answer != Cancel
    ensures r.attempt.Some? <==> checked && answer == Yes
    ensures r.attempt.None? ==> r.world == w && r.state.saveCount == s.saveCount
    ensures r.state.saveCount == if r.attempt.Some? && r.attempt.value.Saved? then Inc32(s.saveCount) else s.saveCount
    ensures r.state.clipboardTimestamp == s.clipboardTimestamp && r.state.content == s.content
    ensures ViewConsistent(r.state)
    ensures checked && answer == Yes ==>
      var sv := Save(UpdateFilename(s, settings, env), w, settings, env, overwrite);
      r.attempt == Some(sv.outcome) && r.world == sv.world
  {
    if checked && answer == Yes then
      var sv := Save(UpdateFilename(s, settings, env), w, settings, env, overwrite);
      Step(UpdateSaveButton(sv.state.(continuousMode := true)), sv.world, Some(sv.outcome))
    else
      Step(UpdateSaveButton(s.(continuousMode := checked && answer == No)), w, None)
  }

  /** How opening the dialog ends: the process exits with a code, or the
      window stays open with the given state and the context-menu checkbox
      showing whether the application is registered. An open window also
      reports the autosave it attempted, if any, including an elevated restart
      asked for by an access error. Either way the registry as the constructor
      left it. */
  datatype Launch =
    | Exited(code: int, world: World, registry: Registry.Registry)
    | Opened(state: DialogState, world: World, registry: Registry.Registry, contextEntry: bool,
             autosave: Option<SaveOutcome>)

  /** The dialog as the constructor has filled it in before deciding whether
      to autosave: the clipboard read at `now`, the rendered name, the counter
      at zero and continuous mode off. */
  function Launched(location: Path, now: Ticks, w: World, settings: Settings, env: Env): (s: DialogState)
    ensures s.content == Classify(w.clipboard) && s.location == location
    ensures s.ext == ChooseExtension(Classify(w.clipboard), settings, "")
    ensures s.filename == env.formatTemplate(settings.filenameTemplate, now, 0).GetOr(InvalidTemplateName)
    ensures s.saveCount == 0 && !s.continuousMode && s.clipboardTimestamp == now
    ensures ViewConsistent(s)
  {
    var blank := DialogState(NoContent, "", "", location, false, 0, now, ControlsFor(false, 0));
    UpdateSaveButton(UpdateFilename(ReadClipboard(blank, w.clipboard, now, settings).state, settings, env))
  }

  /** The dialog constructor's decisions: exit 1 on an empty clipboard, render
      the name, start disarmed, check the registration (which opens, and so
      may create, the class keys), and autosave unless the window is forced
      open; exactly a successful autosave exits 0, any other autosave leaves
      the window open. `forceShow` includes a held Shift key. */
  function Open(location: Path, forceShow: bool, now: Ticks, w: World, hive: Registry.Registry,
                settings: Settings, env: Env, overwrite: bool): (r: Launch)
    ensures r.Exited? && r.code == 1 <==> Classify(w.clipboard).NoContent?
    ensures r.Exited? && r.code == 0 <==>
      && !forceShow && settings.autoSave && !Classify(w.clipboard).NoContent?
      && Save(Launched(location, now, w, settings, env), w, settings, env, overwrite).outcome.Saved?
    ensures r.Exited? ==> r.code in {0, 1}
    ensures r.Exited? && r.code == 1 ==> r.world == w
    ensures !forceShow && settings.autoSave && !Classify(w.clipboard).NoContent?
      ==> r.world == Save(Launched(location, now, w, settings, env), w, settings, env, overwrite).world
    ensures r.Opened? ==> r.state == Launched(location, now, w, settings, env)
    ensures r.Opened? ==> ViewConsistent(r.state) && !r.state.continuousMode
    ensures r.Opened? ==> r.state.content == Classify(w.clipboard) && r.state.saveCount == 0
    ensures r.Opened? && (forceShow || !settings.autoSave)
      ==> r.world == w && r.state == Launched(location, now, w, settings, env) && r.autosave.None?
    ensures r.Opened? && !forceShow && settings.autoSave
      ==> r.autosave == Some(Save(Launched(location, now, w, settings, env), w, settings, env, overwrite).outcome)
    ensures r.Opened? ==> (r.contextEntry <==> RegistryUtil.Registered(hive))
    ensures r.Exited? && r.code == 1 ==> r.registry == hive
    ensures !(r.Exited? && r.code == 1) ==>
      && r.registry.values == hive.values
      && forall x :: x in r.registry.keys <==> x in hive.keys || RegistryUtil.ClassAncestor(x)
  {
    if Classify(w.clipboard).NoContent? then Exited(1, w, hive)
    else
      var s := Launched(location, now, w, settings, env);
      var check := RegistryUtil.IsAppRegistered(hive);
      if !forceShow && settings.autoSave then
        var sv := Save(s, w, settings, env, overwrite);
        if sv.outcome.Saved? then Exited(0, sv.world, check.registry)
        else Opened(sv.state, sv.world, check.registry, check.registered, Some(sv.outcome))
      else Opened(s, w, check.registry, check.registered, None)
  }
}

=== FILE: dialog_properties.dfy ===
/** Properties of the paste dialog's save decision (Dialog.cs:189-286) that
    relate several calls or single out one branch. */
module DialogProperties {
  import opened Strings
  import opened Formats
  import opened ClipboardModel
  import opened FileSystem
  import opened Dialog

  /** Composing an already composed name changes nothing. */
  lemma ComposeIdempotent(filename: string, ext: string)
    ensures ComposeFilename(ComposeFilename(filename, ext), ext) == ComposeFilename(filename, ext)
  {
  }

  /** The rendered name depends only on the template, the read time and the
      counter: the previous name is discarded, so rendering twice changes
      nothing. */
  lemma RenderingForgetsOldName(s: DialogState, name: string, settings: Settings, env: Env)
    ensures UpdateFilename(s.(filename := name), settings, env) == UpdateFilename(s, settings, env)
    ensures UpdateFilename(UpdateFilename(s, settings, env), settings, env) == UpdateFilename(s, settings, env)
  {
  }

  /** Declining the overwrite question returns null and changes nothing at all. */
  lemma DeclinedOverwriteChangesNothing(s: DialogState, w: World, settings: Settings, env: Env)
    requires FileExists(w.fs, TargetPath(s))
    ensures Save(s, w, settings, env, false) == Saving(s, w, OverwriteDeclined)
  {
  }

  /** A directory at the target path aborts before anything is written,
      whatever the user would have answered. */
  lemma DirectoryTargetAborts(s: DialogState, w: World, settings: Settings, env: Env, overwrite: bool)
    requires DirectoryExists(w.fs, TargetPath(s))
    ensures Save(s, w, settings, env, overwrite) == Saving(s, w, TargetIsDirectory)
  {
  }

  /** Text saved as "url": a malformed trimmed text writes no file (at most the
      location directory is created); a saved shortcut holds exactly the
      header line and the trimmed URL. */
  lemma UrlShortcut(s: DialogState, w: World, settings: Settings, env: Env, overwrite: bool)
    requires s.content.TextContent? && ToLowerInvariant(s.ext) == "url"
    ensures var r := Save(s, w, settings, env, overwrite);
      && (!env.isWellFormedUri(Trim(s.content.text)) ==>
            !r.outcome.Saved? && r.state == s && SameExcept(w.fs, r.world.fs, {s.location}))
      && (r.outcome.Saved? ==>
            && env.isWellFormedUri(Trim(s.content.text))
            && r.world.fs.nodes[TargetPath(s)] == File(LinesFile(["[InternetShortcut]", "URL=" + Trim(s.content.text)])))
  {
  }

  /** A target the OS refuses to write asks for an elevated restart when the
      dialog writes text, but is a generic failure for an image, which GDI+
      writes. */
  lemma RefusedTargetByWriter(s: DialogState, w: World, settings: Settings, env: Env, overwrite: bool)
    requires Encodable(s, env) && DirectoryExists(w.fs, s.location)
    requires TargetPath(s) in w.fs.locked && TargetPath(s) !in w.fs.nodes
    ensures s.content.TextContent? ==> Save(s, w, settings, env, overwrite).outcome == SaveOutcome.AccessDenied(s.location)
    ensures s.content.ImageContent? ==> Save(s, w, settings, env, overwrite).outcome == Failed
  {
  }

  /** Text under any other extension is written verbatim. */
  lemma PlainTextVerbatim(s: DialogState, w: World, settings: Settings, env: Env, overwrite: bool)
    requires s.content.TextContent? && ToLowerInvariant(s.ext) != "url"
    ensures var r := Save(s, w, settings, env, overwrite);
      r.outcome.Saved? ==> r.world.fs.nodes[TargetPath(s)] == File(TextFile(s.content.text))
  {
  }

  /** An image is encoded in the format the (lower-cased) extension selects. */
  lemma ImageEncodedByExtension(s: DialogState, w: World, settings: Settings, env: Env, overwrite: bool)
    requires s.content.ImageContent?
    ensures var r := Save(s, w, settings, env, overwrite);
      r.outcome.Saved? ==>
        r.world.fs.nodes[TargetPath(s)] == File(ImageFile(s.content.image, ImageFormatFor(ToLowerInvariant(s.ext))))
  {
  }

  /** An empty clipboard never produces a file. */
  lemma NoContentNeverSaves(s: DialogState, w: World, settings: Settings, env: Env, overwrite: bool)
    requires s.content.NoContent?
    ensures !Save(s, w, settings, env, overwrite).outcome.Saved?
  {
  }

  /** The content is one the dialog can write: not empty, and a well-formed
      URI when saved as a shortcut. */
  predicate Encodable(s: DialogState, env: Env) {
    && !s.content.NoContent?
    && (s.content.TextContent? && ToLowerInvariant(s.ext) == "url" ==> env.isWellFormedUri(Trim(s.content.text)))
  }

  /** With nothing in the way (a writable target inside an existing
      location that is either free or a file the user agreed to replace) the
      save goes through and counts. */
  lemma FreeTargetIsSaved(s: DialogState, w: World, settings: Settings, env: Env, overwrite: bool)
    requires Encodable(s, env)
    requires DirectoryExists(w.fs, s.location)
    requires TargetPath(s) !in w.fs.locked
    requires TargetPath(s) !in w.fs.nodes || (FileExists(w.fs, TargetPath(s)) && overwrite)
    ensures var r := Save(s, w, settings, env, overwrite);
      r.outcome == Saved(TargetPath(s)) && r.state.saveCount == Inc32(s.saveCount)
  {
  }
}

=== FILE: filesystem.dfy ===
/** An abstract Windows filesystem: a map from full paths to files or
    directories, plus the paths where the OS refuses writes
    (`UnauthorizedAccessException`). Paths are compared as exact strings;
    path syntax beyond `Path.Combine` is not interpreted. */
module FileSystem {
  import opened Wrappers
  import opened Strings
  import Formats
  import ClipboardModel

  type Path = string

  /** What a write leaves in a file: `WriteAllText`, `WriteAllLines`, or an
      image encoded by `Image.Save` in the given format. */
  datatype Content =
    | TextFile(text: string)
    | LinesFile(lines: seq<string>)
    | ImageFile(image: ClipboardModel.Image, format: Formats.ImageFormat)

  datatype Node = File(content: Content) | Directory

  datatype FileSystem = FileSystem(nodes: map<Path, Node>, locked: set<Path>)

  /** The two exception families the save paths tell apart. */
  datatype IoError = AccessDenied | OtherIoError

  predicate FileExists(fs: FileSystem, p: Path) {
    p in fs.nodes && fs.nodes[p].File?
  }

  predicate DirectoryExists(fs: FileSystem, p: Path) {
    p in fs.nodes && fs.nodes[p].Directory?
  }

  /** `fs2` differs from `fs` at most at the paths in `touched`. */
  ghost predicate SameExcept(fs: FileSystem, fs2: FileSystem, touched: set<Path>) {
    && fs2.locked == fs.locked
    && (forall p | p !in touched :: p in fs.nodes <==> p in fs2.nodes)
    && (forall p | p !in touched && p in fs.nodes :: fs2.nodes[p] == fs.nodes[p])
  }

  /** `Directory.CreateDirectory`: a no-op on an existing directory, an
      `IOException` on an existing file, an access error where the OS refuses
      the creation. Missing ancestors are not modelled separately. */
  function CreateDirectory(fs: FileSystem, dir: Path): (r: Result<FileSystem, IoError>)
    ensures r.Success? <==> !FileExists(fs, dir) && (DirectoryExists(fs, dir) || dir !in fs.locked)
    ensures r.Success? ==> DirectoryExists(r.value, dir) && SameExcept(fs, r.value, {dir})
    ensures r.Failure? && FileExists(fs, dir) ==> r.error == OtherIoError
  {
    if DirectoryExists(fs, dir) then Success(fs)
    else if FileExists(fs, dir) then Failure(OtherIoError)
    else if dir in fs.locked then Failure(AccessDenied)
    else Success(fs.(nodes := fs.nodes[dir := Directory]))
  }

  /** The API a save goes through, which decides how a refused write
      surfaces: `File.WriteAllText` and `File.WriteAllLines` raise
      `UnauthorizedAccessException` on a protected path or a directory, while
      GDI+'s `Image.Save` reports both as an `ExternalException`. */
  datatype Writer = FileApi | Gdi

  function Refusal(writer: Writer): IoError {
    if writer == FileApi then AccessDenied else OtherIoError
  }

  /** Writing `content` to `p`, a file placed in the directory `dir`: a
      missing `dir` fails with a generic error (`DirectoryNotFoundException`,
      or GDI+'s `ExternalException`); a protected `p` or a directory at `p` is
      refused the way `writer` reports refusals. Otherwise the file is
      created or replaced and nothing else changes. */
  function WriteFile(fs: FileSystem, dir: Path, p: Path, content: Content, writer: Writer): (r: Result<FileSystem, IoError>)
    ensures r.Success? <==> DirectoryExists(fs, dir) && p !in fs.locked && !DirectoryExists(fs, p)
    ensures r.Success? ==> p in r.value.nodes && r.value.nodes[p] == File(content)
    ensures r.Success? ==> SameExcept(fs, r.value, {p})
    ensures r.Failure? && !DirectoryExists(fs, dir) ==> r.error == OtherIoError
    ensures r.Failure? && DirectoryExists(fs, dir) ==> (r.error == AccessDenied <==> writer == FileApi)
  {
    if !DirectoryExists(fs, dir) then Failure(OtherIoError)
    else if p in fs.locked || DirectoryExists(fs, p) then Failure(Refusal(writer))
    else Success(fs.(nodes := fs.nodes[p := File(content)]))
  }

  predicate IsSeparator(c: char) {
    c == '\\' || c == '/'
  }

  /** `Path.IsPathRooted`: a leading separator or a drive letter. */
  predicate IsRooted(p: Path) {
    (|p| >= 1 && IsSeparator(p[0])) || (|p| >= 2 && p[1] == ':')
  }

  /** `Path.Combine(dir, name)` of the .NET Framework: an empty side yields
      the other, a rooted `name` wins, and a backslash is inserted unless `dir`
      already ends with a separator or a volume colon. */
  function Combine(dir: Path, name: Path): (p: Path)
    ensures IsRooted(name) || |dir| == 0 ==> p == name
    ensures !IsRooted(name) && |dir| > 0 ==> |dir| <= |p| && p[..|dir|] == dir && EndsWith(p, name)
    ensures !IsRooted(name) && |dir| > 0 ==> p == dir + name || p == dir + "\\" + name
    ensures !IsRooted(name) && |dir| > 0 && |name| > 0
      ==> (p == dir + name <==> IsSeparator(dir[|dir| - 1]) || dir[|dir| - 1] == ':')
  {
    if |name| == 0 then dir
    else if |dir| == 0 then name
    else if IsRooted(name) then name
    else if IsSeparator(dir[|dir| - 1]) || dir[|dir| - 1] == ':' then dir + name
    else dir + "\\" + name
  }
}

=== FILE: formats.dfy ===
/** The extension lists offered in the extension box and the extension-to-
    `ImageFormat` table shared by both save paths (Dialog.cs:249-256 and
    frmMain.cs:147-154 hold the same switch). */
module Formats {

  /** The `System.Drawing.Imaging.ImageFormat` values the save paths use. */
  datatype ImageFormat = Bmp | Emf | Gif | Icon | Jpeg | Png | Tiff | Wmf

  /** Image extensions, in the order both forms list them. The bitmap entry is
      spelt "bpm" in the program and is kept that way. */
  const ImageExtensions: seq<string> := ["bpm", "emf", "gif", "ico", "jpg", "png", "tif", "wmf"]

  /** Text extensions suggested by the paste dialog. */
  const DialogTextExtensions: seq<string> :=
    ["bat", "java", "js", "json", "cpp", "cs", "css", "csv", "html", "md", "php", "ps1", "py", "txt", "url"]

  /** Text extensions suggested by the older main form. */
  const MainTextExtensions: seq<string> :=
    ["txt", "html", "js", "css", "csv", "json", "cs", "cpp", "java", "php", "py"]

  /** The list entry that selects `f`; "png" for the default format. */
  function ExtensionOf(f: ImageFormat): (e: string)
    ensures e in ImageExtensions
  {
    match f
    case Bmp => "bpm"
    case Emf => "emf"
    case Gif => "gif"
    case Icon => "ico"
    case Jpeg => "jpg"
    case Png => "png"
    case Tiff => "tif"
    case Wmf => "wmf"
  }

  /** The `ImageFormat` chosen for an extension; anything unlisted gets Png. */
  function ImageFormatFor(ext: string): (f: ImageFormat)
    ensures f != Png ==> ext == ExtensionOf(f)
    ensures ext in ImageExtensions ==> ExtensionOf(f) == ext
    ensures ext !in ImageExtensions ==> f == Png
  {
    match ext
    case "bpm" => Bmp
    case "emf" => Emf
    case "gif" => Gif
    case "ico" => Icon
    case "jpg" => Jpeg
    case "tif" => Tiff
    case "wmf" => Wmf
    case _ => Png
  }

  /** Every format is reachable from the extension list, and the table maps
      each list entry back to the format it was chosen for. */
  lemma ImageFormatRoundTrip(f: ImageFormat)
    ensures ImageFormatFor(ExtensionOf(f)) == f
  {
  }

  /** Png is the answer exactly for "png" and for every unlisted extension. */
  lemma PngIsTheDefault(ext: string)
    ensures ImageFormatFor(ext) == Png <==> (ext == "png" || ext !in ImageExtensions)
  {
  }

  /** The table is one-to-one on the listed extensions. */
  lemma ImageFormatForInjective(a: string, b: string)
    requires a in ImageExtensions && b in ImageExtensions
    requires ImageFormatFor(a) == ImageFormatFor(b)
    ensures a == b
  {
  }
}

=== FILE: mainform.dfy ===
/** The older main window (frmMain.cs): its own path composition, its own
    extension lists and image-format switch, the filename-format lookup in the
    registry, and its `save()`, which writes without asking and without
    creating the location. */
module MainForm {
  import opened Wrappers
  import opened Strings
  import opened Formats
  import opened ClipboardModel
  import opened FileSystem
  import opened Registry
  import Dialog

  /** The date pattern used when the registry holds no filename format. */
  const DefaultFilenameFormat: string := "yyyy-MM-dd HH-mm-ss"

  /** The window's fields that `save()` reads. `content` is fixed when the
      window opens: text if the clipboard held text, else the image if any. */
  datatype MainState = MainState(
    content: Snapshot,
    location: Path,
    filename: string,
    ext: string,
    clearClipboard: bool)

  datatype MainOutcome = Written(path: Path) | AccessDenied(restartLocation: Path) | Failed

  datatype MainSaving = MainSaving(world: Dialog.World, outcome: MainOutcome)

  /** The directory part of the target: a backslash is appended unless the
      location already ends with one. */
  function JoinLocation(location: Path): (dir: Path)
    ensures EndsWith(dir, "\\")
    ensures |location| <= |dir| <= |location| + 1 && dir[..|location|] == location
    ensures dir == location <==> EndsWith(location, "\\")
  {
    var dir := location + (if EndsWith(location, "\\") then "" else "\\");
    assert dir[..|location|] == location;
    assert !EndsWith(location, "\\") ==> dir[|dir| - 1..] == "\\";
    dir
  }

  /** The file part of the target: "." and the extension text exactly as
      typed are appended unless the name already ends with them. */
  function SuffixExtension(filename: string, ext: string): (name: string)
    ensures name == filename || name == filename + "." + ext
    ensures EndsWith(name, "." + ext)
    ensures |filename| <= |name| && name[..|filename|] == filename
    ensures name == filename <==> EndsWith(filename, "." + ext)
  {
    var name := filename + (if EndsWith(filename, "." + ext) then "" else "." + ext);
    assert name[..|filename|] == filename;
    assert !EndsWith(filename, "." + ext) ==> name[|name| - |"." + ext|..] == "." + ext;
    name
  }

  /** Composing an already composed name changes nothing. */
  lemma SuffixIdempotent(filename: string, ext: string)
    ensures SuffixExtension(SuffixExtension(filename, ext), ext) == SuffixExtension(filename, ext)
  {
  }

  lemma JoinIdempotent(location: Path)
    ensures JoinLocation(JoinLocation(location)) == JoinLocation(location)
  {
  }

  /** The path `save()` writes to. */
  function MainTargetPath(s: MainState): (file: Path)
    ensures |s.location| < |file| && file[..|s.location|] == s.location
    ensures EndsWith(file, "." + s.ext)
    ensures file == JoinLocation(s.location) + SuffixExtension(s.filename, s.ext)
  {
    var dir := JoinLocation(s.location);
    var name := SuffixExtension(s.filename, s.ext);
    var file := dir + name;
    assert file[..|s.location|] == dir[..|s.location|];
    assert file[|file| - |"." + s.ext|..] == name[|name| - |"." + s.ext|..];
    file
  }

  /** `save()`: text is written with `File.WriteAllText`, an image with
      GDI+'s `Image.Save` in the format the extension selects. There is no
      question before overwriting and no directory is created, so a missing
      location fails. With no content the image is null and the call fails.
      Only an access error from the text write asks for an elevated restart;
      GDI+ reports its refusals as generic errors. The clipboard is cleared,
      if asked, only after a successful write. */
  function MainSave(s: MainState, w: Dialog.World): (r: MainSaving)
    ensures r.outcome.Written? <==> && !s.content.NoContent? && DirectoryExists(w.fs, s.location)
                                    && MainTargetPath(s) !in w.fs.locked && !DirectoryExists(w.fs, MainTargetPath(s))
    ensures r.outcome.Written? ==> r.outcome.path == MainTargetPath(s) && MainTargetPath(s) in r.world.fs.nodes
    ensures r.outcome.Written? && s.content.TextContent?
      ==> r.world.fs.nodes[MainTargetPath(s)] == File(TextFile(s.content.text))
    ensures r.outcome.Written? && s.content.ImageContent?
      ==> r.world.fs.nodes[MainTargetPath(s)] == File(ImageFile(s.content.image, ImageFormatFor(s.ext)))
    ensures r.outcome.AccessDenied? <==> && s.content.TextContent? && DirectoryExists(w.fs, s.location)
                                         && (MainTargetPath(s) in w.fs.locked || DirectoryExists(w.fs, MainTargetPath(s)))
    ensures r.outcome.AccessDenied? ==> r.outcome.restartLocation == s.location
    ensures !r.outcome.Written? ==> r.world == w
    ensures r.world.clipboard == if r.outcome.Written? && s.clearClipboard then Cleared else w.clipboard
    ensures SameExcept(w.fs, r.world.fs, {MainTargetPath(s)})
  {
    var file := MainTargetPath(s);
    var written :=
      match s.content
      case TextContent(text) => Success(TextFile(text))
      case ImageContent(image) => Success(ImageFile(image, ImageFormatFor(s.ext)))
      case NoContent => Failure(OtherIoError);
    var writer := if s.content.TextContent? then FileApi else Gdi;
    if written.Failure? then MainSaving(w, Failed)
    else
      match WriteFile(w.fs, s.location, file, written.value, writer)
      case Failure(e) =>
        MainSaving(w, if e == IoError.AccessDenied then MainOutcome.AccessDenied(s.location) else Failed)
      case Success(fs) =>
        MainSaving(Dialog.World(fs, if s.clearClipboard then Cleared else w.clipboard), Written(file))
  }

  /** Saving replaces an existing file without asking, where the dialog would
      wait for the user's consent. */
  lemma MainSaveOverwritesSilently(s: MainState, w: Dialog.World, settings: Dialog.Settings, env: Dialog.Env,
                                   ds: Dialog.DialogState)
    requires !s.content.NoContent? && DirectoryExists(w.fs, s.location)
    requires FileExists(w.fs, MainTargetPath(s)) && MainTargetPath(s) !in w.fs.locked
    requires Dialog.TargetPath(ds) == MainTargetPath(s)
    ensures MainSave(s, w).outcome == Written(MainTargetPath(s))
    ensures Dialog.Save(ds, w, settings, env, false).outcome == Dialog.OverwriteDeclined
  {
  }

  /** Where the location does not exist, the window fails with a generic
      error and changes nothing, while the dialog, which creates the location
      first, saves to the same path. */
  lemma MissingLocationDiffers(s: MainState, w: Dialog.World, ds: Dialog.DialogState,
                               settings: Dialog.Settings, env: Dialog.Env, overwrite: bool)
    requires s.location !in w.fs.nodes && s.location !in w.fs.locked
    requires ds.location == s.location && ds.content == s.content && !s.content.NoContent?
    requires s.content.TextContent? ==> ToLowerInvariant(ds.ext) != "url"
    requires Dialog.TargetPath(ds) == MainTargetPath(s)
    requires MainTargetPath(s) !in w.fs.nodes && MainTargetPath(s) !in w.fs.locked
    ensures MainSave(s, w) == MainSaving(w, Failed)
    ensures Dialog.Save(ds, w, settings, env, overwrite).outcome == Dialog.Saved(MainTargetPath(s))
  {
    assert MainTargetPath(s) != s.location;
  }

  /** What the regular-expression heuristic made of the text. */
  datatype TextGuess = LooksLikeHtml | LooksLikeJson | PlainText

  /** The extension the window preselects: the guessed text type, "png" for
      an image, nothing when the clipboard was empty. */
  function MainDefaultExtension(content: Snapshot, guess: TextGuess): (ext: string)
    ensures content.TextContent? ==> ext in MainTextExtensions
    ensures content.ImageContent? ==> ext in ImageExtensions && ImageFormatFor(ext) == Png
    ensures content.NoContent? <==> ext == ""
  {
    match content
    case TextContent(_) =>
      (match guess
       case LooksLikeHtml => "html"
       case LooksLikeJson => "json"
       case PlainText => "txt")
    case ImageContent(_) => "png"
    case NoContent => ""
  }

  /** The filename format as the window obtains it from the value stored in
      the registry: the fallback when there is none, the stored string, and no
      format (a failed cast) when a number is stored. */
  function FilenameFormat(stored: Option<RegValue>): (format: Option<string>)
    ensures format.None? <==> stored.Some? && stored.value.DWord?
    ensures format.Some? && format.value != DefaultFilenameFormat ==> stored == Some(Str(format.value))
    ensures stored.Some? && stored.value.Str? ==> format == Some(stored.value.s)
  {
    match stored
    case None => Some(DefaultFilenameFormat)
    case Some(Str(s)) => Some(s)
    case Some(DWord(_)) => None
  }

  /** The key holding the filename format, below the directory shell key. */
  function FilenameKey(subKey: string): KeyPath {
    ["Software", "Classes", "Directory", "shell", subKey, "filename"]
  }

  /** Reading the filename format: a missing key or value falls back to the
      default pattern, a stored string is used as it is. */
  lemma FilenameFormatFallback(r: Registry, subKey: string)
    ensures FilenameKey(subKey) !in r.keys || (FilenameKey(subKey), "") !in r.values
      ==> FilenameFormat(GetValue(r, FilenameKey(subKey), "", None)) == Some(DefaultFilenameFormat)
    ensures FilenameKey(subKey) in r.keys && (FilenameKey(subKey), "") in r.values
      ==> (FilenameFormat(GetValue(r, FilenameKey(subKey), "", None)).None?
           <==> r.values[(FilenameKey(subKey), "")].DWord?)
    ensures FilenameKey(subKey) in r.keys && (FilenameKey(subKey), "") in r.values
            && r.values[(FilenameKey(subKey), "")].Str?
      ==> FilenameFormat(GetValue(r, FilenameKey(subKey), "", None)) == Some(r.values[(FilenameKey(subKey), "")].s)
  {
  }

  /** How the window ends up after it opens: a crash (an uncaught exception
      in the constructor), shown for editing, or saved automatically from the
      state it was filled with, then exited. */
  datatype MainLaunch = Crashed | Shown(state: MainState) | AutoSaved(state: MainState, saving: MainSaving)

  /** The window's constructor: the filename is the current time rendered
      with the stored format (`render`, None where `DateTime.ToString` throws
      `FormatException`), the location defaults to the desktop, the content
      is text if there is any, else the image; with autosave on and Shift not
      held it saves that state at once, whatever the save's outcome. A
      numeric format or an unrenderable one crashes the window. */
  function OpenMain(location: Option<Path>, desktop: Path, stored: Option<RegValue>, render: string -> Option<string>,
                    w: Dialog.World, guess: TextGuess, clearClipboard: bool, autoSave: bool, shiftHeld: bool): (l: MainLaunch)
    ensures l.Crashed? <==> || (stored.Some? && stored.value.DWord?)
                            || (stored.None? && render(DefaultFilenameFormat).None?)
                            || (stored.Some? && stored.value.Str? && render(stored.value.s).None?)
    ensures !l.Crashed? && stored.None? ==> render(DefaultFilenameFormat) == Some(l.state.filename)
    ensures !l.Crashed? && stored.Some? ==> stored.value.Str? && render(stored.value.s) == Some(l.state.filename)
    ensures !l.Crashed? ==> l.state.location == location.GetOr(desktop) && l.state.content == Classify(w.clipboard)
    ensures !l.Crashed? ==> l.state.ext == MainDefaultExtension(Classify(w.clipboard), guess)
    ensures !l.Crashed? ==> l.state.clearClipboard == clearClipboard
    ensures !l.Crashed? ==> (l.AutoSaved? <==> autoSave && !shiftHeld)
    ensures l.AutoSaved? ==> l.saving == MainSave(l.state, w)
  {
    match FilenameFormat(stored)
    case None => Crashed
    case Some(format) =>
      match render(format)
      case None => Crashed
      case Some(filename) =>
        var content := Classify(w.clipboard);
        var s := MainState(content, location.GetOr(desktop), filename, MainDefaultExtension(content, guess), clearClipboard);
        if !shiftHeld && autoSave then AutoSaved(s, MainSave(s, w)) else Shown(s)
  }

  /** For a lower-case, non-blank extension, a composed name that is not
      rooted and a location ending in neither '/' nor ':', the window writes
      to the same path as the dialog. */
  lemma AgreesWithDialogPath(location: Path, filename: string, ext: string)
    requires IsLowerInvariant(ext) && !IsBlank(ext)
    requires |location| > 0 && location[|location| - 1] != '/' && location[|location| - 1] != ':'
    requires !IsRooted(SuffixExtension(filename, ext))
    ensures MainTargetPath(MainState(NoContent, location, filename, ext, false))
         == Combine(location, Dialog.ComposeFilename(filename, ext))
  {
    LowerOfLowerIsIdentity(ext);
    var name := SuffixExtension(filename, ext);
    assert Dialog.ComposeFilename(filename, ext) == name;
    assert |name| > 0;
    assert Combine(location, name) == JoinLocation(location) + name by {
      assert EndsWith(location, "\\") <==> location[|location| - 1] == '\\' by {
        assert location[|location| - 1..] == [location[|location| - 1]];
      }
    }
  }

  /** An extension with an upper-case letter always gives the window and the
      dialog different path strings: the window keeps the letter, the dialog
      lower-cases it. (On a case-insensitive volume both name one file.) */
  lemma UpperCaseExtensionDiffers(s: MainState)
    requires !IsLowerInvariant(s.ext)
    ensures MainTargetPath(s) != Combine(s.location, Dialog.ComposeFilename(s.filename, s.ext))
  {
    var e := ToLowerInvariant(s.ext);
    var k :| 0 <= k < |s.ext| && IsUpperAscii(s.ext[k]);
    assert e[k] != s.ext[k];
    assert !IsWhiteSpace(s.ext[k]);
    var name := Dialog.ComposeFilename(s.filename, s.ext);
    var p := Combine(s.location, name);
    assert EndsWith(p, name) by {
      if p == name {
        assert p[|p| - |name|..] == p;
      }
    }
    EndsWithTransitive(p, name, "." + e);
    assert ("." + e)[k + 1] != ("." + s.ext)[k + 1];
  }

  /** With an empty extension the window still appends the dot, the dialog
      appends nothing. */
  lemma EmptyExtensionDiffers(s: MainState)
    requires s.ext == "" && !EndsWith(s.filename, ".")
    ensures EndsWith(MainTargetPath(s), s.filename + ".")
    ensures Dialog.ComposeFilename(s.filename, s.ext) == s.filename
  {
    var m := MainTargetPath(s);
    var name := SuffixExtension(s.filename, s.ext);
    assert name == s.filename + ".";
    assert m[|m| - |name|..] == name;
  }

  /** For a location that ends in a drive colon, the window writes to the
      root of that drive, while `Path.Combine` attaches the name directly to
      the drive, which names the drive's current directory (the dialog's
      `Path.GetFullPath` expansion of such a location is not modelled). */
  lemma DriveLocationDiffers(location: Path, name: string)
    requires |location| > 0 && location[|location| - 1] == ':' && |name| > 0 && !IsRooted(name)
    ensures JoinLocation(location) == location + "\\"
    ensures Combine(location, name) == location + name
  {
    assert location[|location| - 1..] != "\\";
  }
}

=== FILE: registry.dfy ===
/** The per-user registry hive (HKEY_CURRENT_USER) as a set of key paths and
    the named values stored under them, with the `Microsoft.Win32.RegistryKey`
    operations the program uses. Key names are compared case-sensitively. */
module Registry {
  import opened Wrappers
  import opened Strings

  /** A key below HKEY_CURRENT_USER, one name per level; [] is the hive root. */
  type KeyPath = seq<string>

  datatype RegValue = Str(s: string) | DWord(n: int)

  datatype Registry = Registry(keys: set<KeyPath>, values: map<(KeyPath, string), RegValue>)

  predicate IsPrefix(p: KeyPath, k: KeyPath) {
    |p| <= |k| && k[..|p|] == p
  }

  /** Every key's parents exist, and values live on existing keys. */
  ghost predicate Valid(r: Registry) {
    && [] !in r.keys
    && (forall k, i | k in r.keys && 0 < i < |k| :: k[..i] in r.keys)
    && (forall v | v in r.values :: v.0 in r.keys)
  }

  /** `CreateSubKey`: opens `k`, creating it and any missing parents. */
  function CreateSubKey(r: Registry, k: KeyPath): (r2: Registry)
    requires |k| > 0
    ensures forall x :: x in r2.keys <==> x in r.keys || (|x| > 0 && IsPrefix(x, k))
    ensures r2.values == r.values
    ensures Valid(r) ==> Valid(r2)
  {
    var r2 := r.(keys := r.keys + set i | 0 < i <= |k| :: k[..i]);
    forall x | |x| > 0 && IsPrefix(x, k)
      ensures x in r2.keys
    {
      assert x == k[..|x|];
    }
    assert Valid(r) ==> Valid(r2) by {
      if Valid(r) {
        forall x, i | x in r2.keys && 0 < i < |x|
          ensures x[..i] in r2.keys
        {
          if x !in r.keys {
            assert x[..i] == k[..i];
          }
        }
      }
    }
    r2
  }

  /** `SetValue` on an open key. */
  function SetValue(r: Registry, k: KeyPath, name: string, v: RegValue): (r2: Registry)
    ensures r2.keys == r.keys
    ensures (k, name) in r2.values && r2.values[(k, name)] == v
    ensures forall x | x in r.values && x != (k, name) :: x in r2.values && r2.values[x] == r.values[x]
    ensures forall x | x in r2.values && x != (k, name) :: x in r.values
    ensures Valid(r) && k in r.keys ==> Valid(r2)
  {
    r.(values := r.values[(k, name) := v])
  }

  /** `DeleteSubKeyTree`: removes `k`, everything below it and their values;
      an `ArgumentException` when `k` does not exist. */
  function DeleteSubKeyTree(r: Registry, k: KeyPath): (res: Result<Registry, KeyPath>)
    ensures res.Failure? <==> k !in r.keys
    ensures res.Success? ==> forall x :: x in res.value.keys <==> x in r.keys && !IsPrefix(k, x)
    ensures res.Success? ==> forall v :: v in res.value.values <==> v in r.values && !IsPrefix(k, v.0)
    ensures res.Success? ==> forall v | v in res.value.values :: res.value.values[v] == r.values[v]
    ensures res.Success? && Valid(r) ==> Valid(res.value)
  {
    if k !in r.keys then Failure(k)
    else
      var r2 := Registry(set x | x in r.keys && !IsPrefix(k, x),
                         map v | v in r.values && !IsPrefix(k, v.0) :: r.values[v]);
      assert Valid(r) ==> Valid(r2) by {
        if Valid(r) {
          forall x, i | x in r2.keys && 0 < i < |x|
            ensures x[..i] in r2.keys
          {
            PrefixOfPrefix(k, x, i);
          }
        }
      }
      Success(r2)
  }

  /** Two registries with the same keys and the same values are equal. */
  lemma Extensionality(a: Registry, b: Registry)
    requires forall x :: x in a.keys <==> x in b.keys
    requires forall v :: v in a.values <==> v in b.values
    requires forall v | v in a.values :: a.values[v] == b.values[v]
    ensures a == b
  {
    assert a.keys == b.keys;
    assert a.values == b.values;
  }

  /** A key below a prefix of `x` is below `x`'s own prefix too. */
  lemma PrefixOfPrefix(k: KeyPath, x: KeyPath, i: int)
    requires 0 <= i <= |x|
    ensures IsPrefix(k, x[..i]) ==> IsPrefix(k, x)
  {
    if |k| <= i {
      assert x[..i][..|k|] == x[..|k|];
    }
  }

  /** `Registry.GetValue(key, name, default)`: null for a missing key, the
      default for a missing value. */
  function GetValue(r: Registry, k: KeyPath, name: string, default: Option<RegValue>): (v: Option<RegValue>)
    ensures k !in r.keys ==> v.None?
    ensures k in r.keys && (k, name) in r.values ==> v == Some(r.values[(k, name)])
    ensures k in r.keys && (k, name) !in r.values ==> v == default
  {
    if k !in r.keys then None
    else if (k, name) in r.values then Some(r.values[(k, name)])
    else default
  }

  /** `object.ToString()` of a value as `GetValue` returns it. */
  function ValueString(v: RegValue): string {
    match v
    case Str(s) => s
    case DWord(n) => Decimal(n)
  }
}

=== FILE: registry_util.dfy ===
/** Shell context-menu registration (RegistryUtil.cs): the three class keys,
    the `PasteIntoFile` subtree under each, and the dark-mode query. */
module RegistryUtil {
  import opened Wrappers
  import opened Strings
  import opened Registry

  const PrimaryKeyName: string := "PasteIntoFile"

  const Classes: KeyPath := ["Software", "Classes"]
  const DirectoryShell: KeyPath := ["Software", "Classes", "Directory", "shell"]
  const DirectoryBackgroundShell: KeyPath := ["Software", "Classes", "Directory", "Background", "shell"]
  const AnyFileShell: KeyPath := ["Software", "Classes", "*", "shell"]

  /** The class keys for all types, in the order they are opened. */
  const AllClassKeys: seq<KeyPath> := [DirectoryShell, DirectoryBackgroundShell, AnyFileShell]

  /** The application's entry under a class key. */
  function AppKey(classKey: KeyPath): KeyPath {
    classKey + [PrimaryKeyName]
  }

  function CommandKey(classKey: KeyPath): KeyPath {
    AppKey(classKey) + ["command"]
  }

  /** The class keys `OpenClassKeys(type)` opens for a type: both directory
      keys for "Directory", the any-file key for "*", all three for null. */
  function ClassKeys(kind: Option<string>): (ks: seq<KeyPath>)
    ensures kind.None? ==> ks == AllClassKeys
    ensures kind == Some("Directory") ==> ks == [DirectoryShell, DirectoryBackgroundShell]
    ensures kind == Some("*") ==> ks == [AnyFileShell]
    ensures kind.Some? && kind.value !in {"Directory", "*"} ==> ks == []
    ensures forall i | 0 <= i < |ks| :: ks[i] in AllClassKeys
  {
    (if kind.None? || kind == Some("Directory") then [DirectoryShell, DirectoryBackgroundShell] else [])
    + (if kind.None? || kind == Some("*") then [AnyFileShell] else [])
  }

  /** `x` is a non-root key on the way to one of `ks`. */
  predicate LeadsTo(x: KeyPath, ks: seq<KeyPath>)
    decreases |ks|
  {
    |ks| > 0 && ((|x| > 0 && IsPrefix(x, ks[0])) || LeadsTo(x, ks[1..]))
  }

  /** `x` lies below the application's entry under one of `ks`. */
  predicate UnderAny(x: KeyPath, ks: seq<KeyPath>)
    decreases |ks|
  {
    |ks| > 0 && (IsPrefix(AppKey(ks[0]), x) || UnderAny(x, ks[1..]))
  }

  /** `x` is a key that opening the class keys may create. */
  predicate ClassAncestor(x: KeyPath) {
    |x| > 0 && (IsPrefix(x, DirectoryShell) || IsPrefix(x, DirectoryBackgroundShell) || IsPrefix(x, AnyFileShell))
  }

  /** `x` lies in the application's subtree under some class key. */
  predicate UnderApp(x: KeyPath) {
    IsPrefix(AppKey(DirectoryShell), x) || IsPrefix(AppKey(DirectoryBackgroundShell), x) || IsPrefix(AppKey(AnyFileShell), x)
  }

  lemma AllClassKeysUnfold(x: KeyPath)
    ensures LeadsTo(x, AllClassKeys) <==> ClassAncestor(x)
    ensures UnderAny(x, AllClassKeys) <==> UnderApp(x)
  {
    var k1 := AllClassKeys[1..];
    var k2 := k1[1..];
    assert k1 == [DirectoryBackgroundShell, AnyFileShell] && k2 == [AnyFileShell] && k2[1..] == [];
    assert !LeadsTo(x, k2[1..]) && !UnderAny(x, k2[1..]);
    assert LeadsTo(x, k2) <==> |x| > 0 && IsPrefix(x, AnyFileShell);
    assert LeadsTo(x, k1) <==> (|x| > 0 && IsPrefix(x, DirectoryBackgroundShell)) || LeadsTo(x, k2);
    assert UnderAny(x, k2) <==> IsPrefix(AppKey(AnyFileShell), x);
    assert UnderAny(x, k1) <==> IsPrefix(AppKey(DirectoryBackgroundShell), x) || UnderAny(x, k2);
  }

  lemma UnderAppNamesApp(x: KeyPath)
    ensures UnderApp(x) ==> PrimaryKeyName in x
  {
    if IsPrefix(AppKey(DirectoryShell), x) { assert x[4] == PrimaryKeyName; }
    else if IsPrefix(AppKey(DirectoryBackgroundShell), x) { assert x[5] == PrimaryKeyName; }
    else if IsPrefix(AppKey(AnyFileShell), x) { assert x[4] == PrimaryKeyName; }
  }

  /** No key on the way to a class key mentions the application's key name. */
  lemma ClassAncestorNamesNoApp(x: KeyPath)
    ensures ClassAncestor(x) ==> PrimaryKeyName !in x
  {
    if ClassAncestor(x) {
      var k := if IsPrefix(x, DirectoryShell) then DirectoryShell
               else if IsPrefix(x, DirectoryBackgroundShell) then DirectoryBackgroundShell
               else AnyFileShell;
      forall j | 0 <= j < |x|
        ensures x[j] != PrimaryKeyName
      {
        assert x[j] == k[j];
      }
    }
  }

  /** Opening the class keys never reaches into the application's subtrees. */
  lemma ClassAncestorOutsideApp(x: KeyPath)
    ensures ClassAncestor(x) ==> !UnderApp(x)
  {
    ClassAncestorNamesNoApp(x);
    UnderAppNamesApp(x);
  }

  /** `CreateSubKey` for each key in turn. */
  function CreateAll(r: Registry, ks: seq<KeyPath>): (r2: Registry)
    requires forall i | 0 <= i < |ks| :: |ks[i]| > 0
    ensures forall x :: x in r2.keys <==> x in r.keys || LeadsTo(x, ks)
    ensures r2.values == r.values
    ensures Valid(r) ==> Valid(r2)
    decreases |ks|
  {
    if |ks| == 0 then r else CreateAll(CreateSubKey(r, ks[0]), ks[1..])
  }

  datatype Opened = Opened(registry: Registry, keys: seq<KeyPath>)

  /** `OpenClassKeys(type)`: creates `Software\Classes` and the selected class
      keys if missing, and returns the selected keys. */
  function OpenClassKeys(r: Registry, kind: Option<string>): (o: Opened)
    ensures o.keys == ClassKeys(kind)
    ensures forall i | 0 <= i < |o.keys| :: o.keys[i] in o.registry.keys
    ensures forall x :: x in o.registry.keys <==> x in r.keys || (|x| > 0 && IsPrefix(x, Classes)) || LeadsTo(x, o.keys)
    ensures o.registry.values == r.values
    ensures Valid(r) ==> Valid(o.registry)
  {
    var ks := ClassKeys(kind);
    var o := Opened(CreateAll(CreateSubKey(r, Classes), ks), ks);
    forall i | 0 <= i < |ks|
      ensures ks[i] in o.registry.keys
    {
      LeadsToMember(ks, i);
    }
    o
  }

  lemma {:induction false} LeadsToMember(ks: seq<KeyPath>, i: int)
    requires 0 <= i < |ks| && |ks[i]| > 0
    ensures LeadsTo(ks[i], ks)
    decreases i
  {
    if i > 0 {
      LeadsToMember(ks[1..], i - 1);
      assert ks[1..][i - 1] == ks[i];
    } else {
      assert ks[0][..|ks[0]|] == ks[0];
    }
  }

  /** The three entries all exist: the source's notion of "registered". */
  predicate Registered(r: Registry) {
    AppKey(DirectoryShell) in r.keys && AppKey(DirectoryBackgroundShell) in r.keys && AppKey(AnyFileShell) in r.keys
  }

  datatype Check = Check(registry: Registry, registered: bool)

  lemma ClassesIsClassAncestor(x: KeyPath)
    ensures |x| > 0 && IsPrefix(x, Classes) ==> ClassAncestor(x)
  {
    if |x| > 0 && IsPrefix(x, Classes) {
      assert DirectoryShell[..2] == Classes;
      assert x == DirectoryShell[..|x|];
    }
  }

  /** Opening all class keys adds exactly their ancestry. */
  lemma OpenAllKeys(r: Registry, x: KeyPath)
    ensures x in OpenClassKeys(r, None).registry.keys <==> x in r.keys || ClassAncestor(x)
  {
    AllClassKeysUnfold(x);
    ClassesIsClassAncestor(x);
  }

  /** Opening the class keys leaves the application's entries as they were. */
  lemma OpenKeepsAppKeys(r: Registry, i: int)
    requires 0 <= i < 3
    ensures AppKey(AllClassKeys[i]) in OpenClassKeys(r, None).registry.keys <==> AppKey(AllClassKeys[i]) in r.keys
  {
    var k := AppKey(AllClassKeys[i]);
    OpenAllKeys(r, k);
    ClassAncestorOutsideApp(k);
    assert IsPrefix(k, k);
  }

  /** `IsAppRegistered()`: every opened class key has a `PasteIntoFile`
      subkey. Opening the keys may create the class keys themselves. */
  function IsAppRegistered(r: Registry): (c: Check)
    ensures c.registered <==> Registered(r)
    ensures forall x :: x in c.registry.keys <==> x in r.keys || ClassAncestor(x)
    ensures c.registry.values == r.values
    ensures Valid(r) ==> Valid(c.registry)
  {
    var o := OpenClassKeys(r, None);
    var registered := forall i | 0 <= i < |o.keys| :: AppKey(o.keys[i]) in o.registry.keys;
    forall x
      ensures x in o.registry.keys <==> x in r.keys || ClassAncestor(x)
    {
      OpenAllKeys(r, x);
    }
    OpenedAppKeys(r);
    Check(o.registry, registered)
  }

  /** Deleting any one entry unregisters the application. */
  lemma DeletingOneEntryUnregisters(r: Registry, k: KeyPath)
    requires k in AllClassKeys && AppKey(k) in r.keys
    ensures DeleteSubKeyTree(r, AppKey(k)).Success?
    ensures !Registered(DeleteSubKeyTree(r, AppKey(k)).value)
  {
    assert IsPrefix(AppKey(k), AppKey(k));
  }

  /** The default value of a `command` key: the quoted executable, the verb
      and the quoted folder or file placeholder. */
  function CommandLine(exe: string, verb: string): (c: string)
    ensures |c| == |exe| + |verb| + 8
    ensures c[..|exe| + 3] == "\"" + exe + "\" "
    ensures EndsWith(c, verb + " \"%V\"")
  {
    var c := "\"" + exe + "\" " + verb + " \"%V\"";
    assert c[..|exe| + 3] == "\"" + exe + "\" ";
    assert c[|c| - |verb + " \"%V\""|..] == verb + " \"%V\"";
    c
  }

  function IconValue(exe: string): string {
    "\"" + exe + "\",0"
  }

  /** The three values one entry carries: its title, its icon, its command. */
  function EntryValues(classKey: KeyPath, title: string, exe: string, verb: string): map<(KeyPath, string), RegValue> {
    map[(AppKey(classKey), "") := Str(title),
        (AppKey(classKey), "Icon") := Str(IconValue(exe)),
        (CommandKey(classKey), "") := Str(CommandLine(exe, verb))]
  }

  lemma PrefixOfAppKeyLeadsToCommand(x: KeyPath, classKey: KeyPath)
    ensures IsPrefix(x, classKey) || IsPrefix(x, AppKey(classKey)) ==> IsPrefix(x, CommandKey(classKey))
  {
    if IsPrefix(x, classKey) {
      assert CommandKey(classKey)[..|x|] == classKey[..|x|];
    }
    if IsPrefix(x, AppKey(classKey)) {
      assert CommandKey(classKey)[..|x|] == AppKey(classKey)[..|x|];
    }
  }

  lemma UpdatesAreMerge<K, V>(m: map<K, V>, a: K, va: V, b: K, vb: V, c: K, vc: V)
    ensures m[a := va][b := vb][c := vc] == m + map[a := va, b := vb, c := vc]
  {
  }

  lemma MergeAssociates<K, V>(x: map<K, V>, y: map<K, V>, z: map<K, V>)
    ensures (x + y) + z == x + (y + z)
  {
  }

  /** One iteration of `RegisterApp`'s loops: create the entry with its title
      and icon, then its `command` subkey with the command line. */
  function RegisterEntry(r: Registry, classKey: KeyPath, title: string, exe: string, verb: string): (r2: Registry)
    ensures forall x :: x in r2.keys <==> x in r.keys || (|x| > 0 && IsPrefix(x, CommandKey(classKey)))
    ensures r2.values == r.values + EntryValues(classKey, title, exe, verb)
    ensures Valid(r) ==> Valid(r2)
  {
    var k := AppKey(classKey);
    var c := CommandKey(classKey);
    var r1 := SetValue(SetValue(CreateSubKey(r, k), k, "", Str(title)), k, "Icon", Str(IconValue(exe)));
    forall x ensures IsPrefix(x, k) ==> IsPrefix(x, c) {
      PrefixOfAppKeyLeadsToCommand(x, classKey);
    }
    var r2 := SetValue(CreateSubKey(r1, c), c, "", Str(CommandLine(exe, verb)));
    UpdatesAreMerge(r.values, (k, ""), Str(title), (k, "Icon"), Str(IconValue(exe)), (c, ""), Str(CommandLine(exe, verb)));
    r2
  }

  /** The command value of each entry `RegisterApp` writes: "paste" for the
      two directory keys, "copy" for the any-file key. */
  lemma CommandTargets(r: Registry, exe: string, dirTitle: string, fileTitle: string)
    ensures var v := RegisterApp(r, exe, dirTitle, fileTitle).values;
      && (CommandKey(DirectoryShell), "") in v && v[(CommandKey(DirectoryShell), "")] == Str(CommandLine(exe, "paste"))
      && (CommandKey(DirectoryBackgroundShell), "") in v && v[(CommandKey(DirectoryBackgroundShell), "")] == Str(CommandLine(exe, "paste"))
      && (CommandKey(AnyFileShell), "") in v && v[(CommandKey(AnyFileShell), "")] == Str(CommandLine(exe, "copy"))
  {
    RegisteredCommands(exe, dirTitle, fileTitle);
  }

  lemma RegisteredCommands(exe: string, dirTitle: string, fileTitle: string)
    ensures var v := RegisteredValues(exe, dirTitle, fileTitle);
      && (CommandKey(DirectoryShell), "") in v && v[(CommandKey(DirectoryShell), "")] == Str(CommandLine(exe, "paste"))
      && (CommandKey(DirectoryBackgroundShell), "") in v && v[(CommandKey(DirectoryBackgroundShell), "")] == Str(CommandLine(exe, "paste"))
      && (CommandKey(AnyFileShell), "") in v && v[(CommandKey(AnyFileShell), "")] == Str(CommandLine(exe, "copy"))
  {
    var d := [DirectoryShell, DirectoryBackgroundShell];
    assert d[1..] == [DirectoryBackgroundShell] && d[1..][1..] == [];
    assert [AnyFileShell][1..] == [];
    var e1 := EntryValues(DirectoryShell, dirTitle, exe, "paste");
    var e2 := EntryValues(DirectoryBackgroundShell, dirTitle, exe, "paste");
    var e3 := EntryValues(AnyFileShell, fileTitle, exe, "copy");
    assert EntriesValues(d[1..][1..], dirTitle, exe, "paste") == map[];
    assert EntriesValues(d[1..], dirTitle, exe, "paste") == e2 + map[];
    assert EntriesValues(d, dirTitle, exe, "paste") == e1 + EntriesValues(d[1..], dirTitle, exe, "paste");
    assert EntriesValues([AnyFileShell], fileTitle, exe, "copy") == e3 + map[];
    var cd, cb, ca := (CommandKey(DirectoryShell), ""), (CommandKey(DirectoryBackgroundShell), ""), (CommandKey(AnyFileShell), "");
    assert cd !in e2 && cd !in e3 by {
      assert CommandKey(DirectoryShell)[3] != CommandKey(DirectoryBackgroundShell)[3];
      assert CommandKey(DirectoryShell)[3] != AppKey(DirectoryBackgroundShell)[3];
      assert CommandKey(DirectoryShell)[2] != CommandKey(AnyFileShell)[2];
      assert |CommandKey(DirectoryShell)| != |AppKey(AnyFileShell)|;
    }
    assert cb !in e3 by {
      assert CommandKey(DirectoryBackgroundShell)[2] != CommandKey(AnyFileShell)[2];
      assert |CommandKey(DirectoryBackgroundShell)| != |AppKey(AnyFileShell)|;
    }
    MergeLookup(e1, e2, cd);
    MergeLookup(e1 + e2, e3, cd);
    MergeLookup(e1 + e2, e3, cb);
  }

  lemma MergeLookup<K, V>(a: map<K, V>, b: map<K, V>, k: K)
    requires k in a && k !in b
    ensures k in a + b && (a + b)[k] == a[k]
  {
  }

  /** `x` is a non-root key on the way to the command key of one of `ks`. */
  predicate LeadsToCommand(x: KeyPath, ks: seq<KeyPath>)
    decreases |ks|
  {
    |ks| > 0 && ((|x| > 0 && IsPrefix(x, CommandKey(ks[0]))) || LeadsToCommand(x, ks[1..]))
  }

  function EntriesValues(ks: seq<KeyPath>, title: string, exe: string, verb: string): map<(KeyPath, string), RegValue>
    decreases |ks|
  {
    if |ks| == 0 then map[] else EntryValues(ks[0], title, exe, verb) + EntriesValues(ks[1..], title, exe, verb)
  }

  /** `RegisterEntry` for each opened class key in turn. */
  function RegisterEntries(r: Registry, ks: seq<KeyPath>, title: string, exe: string, verb: string): (r2: Registry)
    ensures forall x :: x in r2.keys <==> x in r.keys || LeadsToCommand(x, ks)
    ensures r2.values == r.values + EntriesValues(ks, title, exe, verb)
    ensures Valid(r) ==> Valid(r2)
    decreases |ks|
  {
    if |ks| == 0 then r
    else
      var r1 := RegisterEntry(r, ks[0], title, exe, verb);
      var r2 := RegisterEntries(r1, ks[1..], title, exe, verb);
      MergeAssociates(r.values, EntryValues(ks[0], title, exe, verb), EntriesValues(ks[1..], title, exe, verb));
      r2
  }

  lemma MergeIdempotent<K, V>(x: map<K, V>, y: map<K, V>)
    ensures (x + y) + y == x + y
  {
  }

  /** Every value `RegisterApp` writes, keyed by class key. */
  function RegisteredValues(exe: string, dirTitle: string, fileTitle: string): map<(KeyPath, string), RegValue> {
    EntriesValues([DirectoryShell, DirectoryBackgroundShell], dirTitle, exe, "paste")
    + EntriesValues([AnyFileShell], fileTitle, exe, "copy")
  }

  lemma {:induction false} LeadsToLeadsToCommand(x: KeyPath, ks: seq<KeyPath>)
    ensures LeadsTo(x, ks) ==> LeadsToCommand(x, ks)
    decreases |ks|
  {
    if |ks| > 0 {
      PrefixOfAppKeyLeadsToCommand(x, ks[0]);
      LeadsToLeadsToCommand(x, ks[1..]);
    }
  }

  /** The keys on the way to the three command keys, split by class type. */
  lemma CommandKeysUnfold(x: KeyPath)
    ensures LeadsToCommand(x, AllClassKeys)
        <==> LeadsToCommand(x, [DirectoryShell, DirectoryBackgroundShell]) || LeadsToCommand(x, [AnyFileShell])
  {
    var k1 := AllClassKeys[1..];
    var k2 := k1[1..];
    var d := [DirectoryShell, DirectoryBackgroundShell];
    assert k1 == [DirectoryBackgroundShell, AnyFileShell] && k2 == [AnyFileShell] && k2[1..] == [];
    assert d[1..] == [DirectoryBackgroundShell] && d[1..][1..] == [];
    assert !LeadsToCommand(x, []);
  }

  lemma CommandKeysSpelled(x: KeyPath)
    ensures LeadsToCommand(x, AllClassKeys)
        <==> |x| > 0 && (IsPrefix(x, CommandKey(DirectoryShell)) || IsPrefix(x, CommandKey(DirectoryBackgroundShell)) || IsPrefix(x, CommandKey(AnyFileShell)))
  {
    var k1 := AllClassKeys[1..];
    var k2 := k1[1..];
    assert k1 == [DirectoryBackgroundShell, AnyFileShell] && k2 == [AnyFileShell] && k2[1..] == [];
    assert !LeadsToCommand(x, k2[1..]);
    assert LeadsToCommand(x, k2) <==> |x| > 0 && IsPrefix(x, CommandKey(AnyFileShell));
    assert LeadsToCommand(x, k1) <==> (|x| > 0 && IsPrefix(x, CommandKey(DirectoryBackgroundShell))) || LeadsToCommand(x, k2);
  }

  /** A non-root key on the way to `classKey`'s command key is on the way to
      `classKey` or inside the application's entry below it. */
  lemma PrefixOfCommandKey(x: KeyPath, classKey: KeyPath)
    ensures IsPrefix(x, CommandKey(classKey)) ==> IsPrefix(x, classKey) || IsPrefix(AppKey(classKey), x)
  {
    if IsPrefix(x, CommandKey(classKey)) {
      if |x| <= |classKey| {
        assert x == CommandKey(classKey)[..|x|] == classKey[..|x|];
      } else {
        assert x[..|AppKey(classKey)|] == CommandKey(classKey)[..|AppKey(classKey)|] == AppKey(classKey);
      }
    }
  }

  /** The keys `RegisterApp` may create are the class keys' ancestry and the
      application's own entries. */
  lemma CommandAncestor(x: KeyPath)
    ensures LeadsToCommand(x, AllClassKeys) ==> ClassAncestor(x) || UnderApp(x)
    ensures ClassAncestor(x) ==> LeadsToCommand(x, AllClassKeys)
  {
    CommandKeysSpelled(x);
    PrefixOfCommandKey(x, DirectoryShell);
    PrefixOfCommandKey(x, DirectoryBackgroundShell);
    PrefixOfCommandKey(x, AnyFileShell);
    PrefixOfAppKeyLeadsToCommand(x, DirectoryShell);
    PrefixOfAppKeyLeadsToCommand(x, DirectoryBackgroundShell);
    PrefixOfAppKeyLeadsToCommand(x, AnyFileShell);
  }

  /** `RegisterApp()`: the "paste" entry under both directory class keys,
      then the "copy" entry under the any-file class key. */
  function RegisterApp(r: Registry, exe: string, dirTitle: string, fileTitle: string): (r2: Registry)
    ensures forall x :: x in r2.keys <==> x in r.keys || LeadsToCommand(x, AllClassKeys)
    ensures r2.values == r.values + RegisteredValues(exe, dirTitle, fileTitle)
    ensures Valid(r) ==> Valid(r2)
  {
    var o1 := OpenClassKeys(r, Some("Directory"));
    var r1 := RegisterEntries(o1.registry, o1.keys, dirTitle, exe, "paste");
    var o2 := OpenClassKeys(r1, Some("*"));
    var r2 := RegisterEntries(o2.registry, o2.keys, fileTitle, exe, "copy");
    forall x
      ensures x in r2.keys <==> x in r.keys || LeadsToCommand(x, AllClassKeys)
    {
      CommandKeysUnfold(x);
      LeadsToLeadsToCommand(x, o1.keys);
      LeadsToLeadsToCommand(x, o2.keys);
      ClassesIsClassAncestor(x);
      CommandAncestor(x);
    }
    MergeAssociates(r.values, EntriesValues(o1.keys, dirTitle, exe, "paste"), EntriesValues(o2.keys, fileTitle, exe, "copy"));
    r2
  }

  /** After `RegisterApp()` the application counts as registered. */
  lemma RegisterRegisters(r: Registry, exe: string, dirTitle: string, fileTitle: string)
    ensures Registered(RegisterApp(r, exe, dirTitle, fileTitle))
    ensures IsAppRegistered(RegisterApp(r, exe, dirTitle, fileTitle)).registered
  {
    RegisteredAfterRegister(RegisterApp(r, exe, dirTitle, fileTitle));
  }

  lemma RegisteredAfterRegister(r: Registry)
    requires forall x :: LeadsToCommand(x, AllClassKeys) ==> x in r.keys
    ensures Registered(r)
  {
    AppKeyLeadsToCommand(DirectoryShell);
    AppKeyLeadsToCommand(DirectoryBackgroundShell);
    AppKeyLeadsToCommand(AnyFileShell);
  }

  lemma AppKeyLeadsToCommand(k: KeyPath)
    requires k in AllClassKeys
    ensures LeadsToCommand(AppKey(k), AllClassKeys)
  {
    assert IsPrefix(AppKey(k), CommandKey(k));
    CommandKeysSpelled(AppKey(k));
  }

  /** Registering twice is the same as registering once. */
  lemma RegisterIdempotent(r: Registry, exe: string, dirTitle: string, fileTitle: string)
    ensures RegisterApp(RegisterApp(r, exe, dirTitle, fileTitle), exe, dirTitle, fileTitle)
         == RegisterApp(r, exe, dirTitle, fileTitle)
  {
    var r1 := RegisterApp(r, exe, dirTitle, fileTitle);
    RegisterOnRegistered(r1, r.values, exe, dirTitle, fileTitle);
  }

  lemma RegisterOnRegistered(r: Registry, base: map<(KeyPath, string), RegValue>, exe: string, dirTitle: string, fileTitle: string)
    requires forall x :: LeadsToCommand(x, AllClassKeys) ==> x in r.keys
    requires r.values == base + RegisteredValues(exe, dirTitle, fileTitle)
    ensures RegisterApp(r, exe, dirTitle, fileTitle) == r
  {
    var r2 := RegisterApp(r, exe, dirTitle, fileTitle);
    MergeIdempotent(base, RegisteredValues(exe, dirTitle, fileTitle));
    Extensionality(r2, r);
  }

  lemma AllClassKeysDistinct()
    ensures forall i | 0 <= i < |AllClassKeys| :: AllClassKeys[i] in AllClassKeys
    ensures forall i, j | 0 <= i < j < |AllClassKeys| :: AllClassKeys[i] != AllClassKeys[j]
  {
    assert DirectoryShell[2] != AnyFileShell[2];
    assert DirectoryBackgroundShell[2] != AnyFileShell[2];
    assert DirectoryShell[3] != DirectoryBackgroundShell[3];
  }

  /** The application's entries under two different class keys do not
      contain one another. */
  lemma AppKeysIndependent(a: KeyPath, b: KeyPath)
    requires a in AllClassKeys && b in AllClassKeys && a != b
    ensures !IsPrefix(AppKey(a), AppKey(b))
  {
    if |AppKey(a)| <= |AppKey(b)| {
      if a == DirectoryShell || b == DirectoryShell {
        var other := if a == DirectoryShell then b else a;
        if other == AnyFileShell {
          assert AppKey(a)[2] != AppKey(b)[2];
        } else {
          assert AppKey(a)[3] != AppKey(b)[3];
        }
      } else {
        assert AppKey(a)[2] != AppKey(b)[2];
      }
    }
  }

  datatype Unregistration = Unregistration(registry: Registry, completed: bool)

  /** `DeleteSubKeyTree(PRIMARY_KEY_NAME)` under each class key in turn; the
      first missing entry throws, leaving the earlier deletions in place. */
  function DeleteAll(r: Registry, ks: seq<KeyPath>): (u: Unregistration)
    requires forall i | 0 <= i < |ks| :: ks[i] in AllClassKeys
    requires forall i, j | 0 <= i < j < |ks| :: ks[i] != ks[j]
    ensures u.completed <==> forall i | 0 <= i < |ks| :: AppKey(ks[i]) in r.keys
    ensures forall x :: x in u.registry.keys ==> x in r.keys
    ensures forall x :: x in r.keys && !UnderAny(x, ks) ==> x in u.registry.keys
    ensures u.completed ==> forall x | x in u.registry.keys :: !UnderAny(x, ks)
    ensures forall v :: v in u.registry.values ==> v in r.values && u.registry.values[v] == r.values[v]
    ensures forall v :: v in r.values && !UnderAny(v.0, ks) ==> v in u.registry.values
    ensures u.completed ==> forall v | v in u.registry.values :: !UnderAny(v.0, ks)
    ensures Valid(r) ==> Valid(u.registry)
    decreases |ks|
  {
    if |ks| == 0 then Unregistration(r, true)
    else
      match DeleteSubKeyTree(r, AppKey(ks[0]))
      case Failure(_) => Unregistration(r, false)
      case Success(r1) =>
        forall i | 1 <= i < |ks|
          ensures AppKey(ks[i]) in r1.keys <==> AppKey(ks[i]) in r.keys
        {
          AppKeysIndependent(ks[0], ks[i]);
        }
        var u := DeleteAll(r1, ks[1..]);
        assert (forall i | 0 <= i < |ks| :: AppKey(ks[i]) in r.keys)
           <==> AppKey(ks[0]) in r.keys && forall i | 0 <= i < |ks| - 1 :: AppKey(ks[1..][i]) in r1.keys;
        u
  }

  /** `UnRegisterApp()`: opens all class keys and deletes the application's
      entry under each. It completes exactly when the application was
      registered; otherwise the first missing entry aborts it. */
  function UnRegisterApp(r: Registry): (u: Unregistration)
    ensures u.completed <==> Registered(r)
    ensures Valid(r) ==> Valid(u.registry)
  {
    var o := OpenClassKeys(r, None);
    AllClassKeysDistinct();
    OpenedAppKeys(r);
    var u := DeleteAll(o.registry, o.keys);
    u
  }

  /** Unregistering touches no key outside the application's subtrees, and
      when it completes no key inside them remains. */
  lemma UnregisterKeys(r: Registry, x: KeyPath)
    ensures x in UnRegisterApp(r).registry.keys ==> x in r.keys || ClassAncestor(x)
    ensures (x in r.keys || ClassAncestor(x)) && !UnderApp(x) ==> x in UnRegisterApp(r).registry.keys
    ensures UnRegisterApp(r).completed && UnderApp(x) ==> x !in UnRegisterApp(r).registry.keys
  {
    AllClassKeysUnfold(x);
    OpenAllKeys(r, x);
  }

  /** After a completed unregistration the application is no longer
      registered. */
  lemma UnregisterLeavesUnregistered(r: Registry)
    ensures UnRegisterApp(r).completed ==> !Registered(UnRegisterApp(r).registry)
  {
    UnregisterKeys(r, AppKey(DirectoryShell));
    assert IsPrefix(AppKey(DirectoryShell), AppKey(DirectoryShell));
  }

  /** Unregistering removes values only inside the application's subtrees,
      all of them when it completes, and changes none it keeps. */
  lemma UnregisterValues(r: Registry, v: (KeyPath, string))
    ensures v in UnRegisterApp(r).registry.values ==> v in r.values && UnRegisterApp(r).registry.values[v] == r.values[v]
    ensures v in r.values && !UnderApp(v.0) ==> v in UnRegisterApp(r).registry.values
    ensures UnRegisterApp(r).completed && UnderApp(v.0) ==> v !in UnRegisterApp(r).registry.values
  {
    AllClassKeysUnfold(v.0);
  }

  /** The opened class keys all have the application's entry exactly when
      the registry had all three entries. */
  lemma OpenedAppKeys(r: Registry)
    ensures (forall i | 0 <= i < |AllClassKeys| :: AppKey(AllClassKeys[i]) in OpenClassKeys(r, None).registry.keys)
        <==> Registered(r)
  {
    forall i | 0 <= i < |AllClassKeys|
      ensures AppKey(AllClassKeys[i]) in OpenClassKeys(r, None).registry.keys <==> AppKey(AllClassKeys[i]) in r.keys
    {
      OpenKeepsAppKeys(r, i);
    }
    assert AllClassKeys[0] == DirectoryShell;
    assert AllClassKeys[1] == DirectoryBackgroundShell;
    assert AllClassKeys[2] == AnyFileShell;
  }

  lemma EntryValuesUnderApp(classKey: KeyPath, title: string, exe: string, verb: string)
    ensures forall v | v in EntryValues(classKey, title, exe, verb) :: IsPrefix(AppKey(classKey), v.0)
  {
    assert IsPrefix(AppKey(classKey), AppKey(classKey));
    assert CommandKey(classKey)[..|AppKey(classKey)|] == AppKey(classKey);
  }

  /** Every value `RegisterApp` writes lies in the application's subtrees. */
  lemma RegisteredValueUnderApp(exe: string, dirTitle: string, fileTitle: string, v: (KeyPath, string))
    ensures v in RegisteredValues(exe, dirTitle, fileTitle) ==> UnderApp(v.0)
  {
    var d := [DirectoryShell, DirectoryBackgroundShell];
    assert d[1..] == [DirectoryBackgroundShell] && d[1..][1..] == [];
    assert [AnyFileShell][1..] == [];
    var e1 := EntryValues(DirectoryShell, dirTitle, exe, "paste");
    var e2 := EntryValues(DirectoryBackgroundShell, dirTitle, exe, "paste");
    var e3 := EntryValues(AnyFileShell, fileTitle, exe, "copy");
    assert EntriesValues(d[1..][1..], dirTitle, exe, "paste") == map[];
    assert EntriesValues(d[1..], dirTitle, exe, "paste") == e2 + map[];
    assert EntriesValues(d, dirTitle, exe, "paste") == e1 + EntriesValues(d[1..], dirTitle, exe, "paste");
    assert EntriesValues([AnyFileShell], fileTitle, exe, "copy") == e3 + map[];
    assert v in RegisteredValues(exe, dirTitle, fileTitle) ==> v in e1 || v in e2 || v in e3;
    EntryValuesUnderApp(DirectoryShell, dirTitle, exe, "paste");
    EntryValuesUnderApp(DirectoryBackgroundShell, dirTitle, exe, "paste");
    EntryValuesUnderApp(AnyFileShell, fileTitle, exe, "copy");
  }

  lemma RoundTripKey(r: Registry, exe: string, dirTitle: string, fileTitle: string, x: KeyPath)
    requires forall y | y in r.keys :: !UnderApp(y)
    ensures x in UnRegisterApp(RegisterApp(r, exe, dirTitle, fileTitle)).registry.keys <==> x in OpenClassKeys(r, None).registry.keys
  {
    RegisterRegisters(r, exe, dirTitle, fileTitle);
    UnregisterKeys(RegisterApp(r, exe, dirTitle, fileTitle), x);
    CommandAncestor(x);
    ClassAncestorOutsideApp(x);
    OpenAllKeys(r, x);
  }

  lemma RoundTripValue(r: Registry, exe: string, dirTitle: string, fileTitle: string, v: (KeyPath, string))
    requires forall w | w in r.values :: !UnderApp(w.0)
    ensures v in UnRegisterApp(RegisterApp(r, exe, dirTitle, fileTitle)).registry.values <==> v in r.values
    ensures v in r.values ==> UnRegisterApp(RegisterApp(r, exe, dirTitle, fileTitle)).registry.values[v] == r.values[v]
  {
    RegisterRegisters(r, exe, dirTitle, fileTitle);
    RegisteredValueUnderApp(exe, dirTitle, fileTitle, v);
    UnregisterValues(RegisterApp(r, exe, dirTitle, fileTitle), v);
  }

  /** Registering and then unregistering an application that had no entries
      leaves the registry as opening the class keys alone would. */
  lemma RegisterThenUnregister(r: Registry, exe: string, dirTitle: string, fileTitle: string)
    requires forall x | x in r.keys :: !UnderApp(x)
    requires forall v | v in r.values :: !UnderApp(v.0)
    ensures UnRegisterApp(RegisterApp(r, exe, dirTitle, fileTitle)).completed
    ensures UnRegisterApp(RegisterApp(r, exe, dirTitle, fileTitle)).registry == OpenClassKeys(r, None).registry
  {
    RegisterRegisters(r, exe, dirTitle, fileTitle);
    var u := UnRegisterApp(RegisterApp(r, exe, dirTitle, fileTitle));
    var o := OpenClassKeys(r, None);
    forall x
      ensures x in u.registry.keys <==> x in o.registry.keys
    {
      RoundTripKey(r, exe, dirTitle, fileTitle, x);
    }
    forall v
      ensures v in u.registry.values <==> v in o.registry.values
      ensures v in o.registry.values ==> u.registry.values[v] == o.registry.values[v]
    {
      RoundTripValue(r, exe, dirTitle, fileTitle, v);
    }
    Extensionality(u.registry, o.registry);
  }

  const PersonalizeKey: KeyPath := ["Software", "Microsoft", "Windows", "CurrentVersion", "Themes", "Personalize"]

  /** What `Registry.GetValue` delivered: a value, null, or an exception
      (a security or I/O error the environment may raise). */
  datatype ValueRead = Read(value: Option<RegValue>) | Threw

  /** The decision `IsDarkMode()` takes on a read of `AppsUseLightTheme`:
      dark only when the value prints as "0"; null and exceptions are light. */
  function DarkModeFrom(read: ValueRead): (dark: bool)
    ensures dark <==> read == Read(Some(Str("0"))) || read == Read(Some(DWord(0)))
  {
    DecimalZeroIff(read);
    read.Read? && read.value.Some? && ValueString(read.value.value) == "0"
  }

  lemma DecimalZeroIff(read: ValueRead)
    ensures read.Read? && read.value.Some? && read.value.value.DWord? ==> (Decimal(read.value.value.n) == "0" <==> read.value.value.n == 0)
  {
    if read.Read? && read.value.Some? && read.value.value.DWord? {
      DecimalZero(read.value.value.n);
    }
  }

  /** `IsDarkMode()` on a registry that reads without error: a missing value
      defaults to "1", a missing key gives null, both meaning light. */
  function IsDarkMode(r: Registry): (dark: bool)
    ensures dark <==> PersonalizeKey in r.keys && (PersonalizeKey, "AppsUseLightTheme") in r.values
                      && r.values[(PersonalizeKey, "AppsUseLightTheme")] in {Str("0"), DWord(0)}
  {
    DarkModeFrom(Read(GetValue(r, PersonalizeKey, "AppsUseLightTheme", Some(Str("1")))))
  }
}

=== FILE: strings.dfy ===
/** The handful of `System.String` operations the save pipeline relies on,
    with the character classes of .NET's `char.IsWhiteSpace` and an ASCII-only
    `ToLowerInvariant`. */
module Strings {

  /** `s.EndsWith(suffix)` under an ordinal comparison. */
  predicate EndsWith(s: string, suffix: string) {
    |suffix| <= |s| && s[|s| - |suffix|..] == suffix
  }

  /** A suffix of a suffix is a suffix. */
  lemma EndsWithTransitive(s: string, mid: string, suffix: string)
    requires EndsWith(s, mid) && EndsWith(mid, suffix)
    ensures EndsWith(s, suffix)
  {
    assert s[|s| - |suffix|..] == s[|s| - |mid|..][|mid| - |suffix|..];
  }

  /** The characters `char.IsWhiteSpace` accepts: the Unicode separators
      (Zs, Zl, Zp) and the controls U+0009..U+000D and U+0085. */
  predicate IsWhiteSpace(c: char) {
    || ('\U{9}' <= c <= '\U{D}')
    || c == ' ' || c == '\U{85}' || c == '\U{A0}' || c == '\U{1680}'
    || ('\U{2000}' <= c <= '\U{200A}')
    || c == '\U{2028}' || c == '\U{2029}' || c == '\U{202F}' || c == '\U{205F}'
    || c == '\U{3000}'
  }

  /** `string.IsNullOrWhiteSpace` for a non-null string: empty or all blanks. */
  predicate IsBlank(s: string) {
    forall k | 0 <= k < |s| :: IsWhiteSpace(s[k])
  }

  /** Neither end of `s` is a blank (vacuous for the empty string). */
  predicate HasNoBlankEdge(s: string) {
    |s| == 0 || (!IsWhiteSpace(s[0]) && !IsWhiteSpace(s[|s| - 1]))
  }

  predicate IsUpperAscii(c: char) {
    'A' <= c <= 'Z'
  }

  function ToLowerChar(c: char): (d: char)
    ensures !IsUpperAscii(d)
    ensures IsUpperAscii(c) ==> d as int == c as int + 32
    ensures !IsUpperAscii(c) ==> d == c
  {
    if IsUpperAscii(c) then (c as int + 32) as char else c
  }

  /** `ToLowerInvariant`, restricted to the ASCII letters. */
  function ToLowerInvariant(s: string): (r: string)
    ensures |r| == |s|
    ensures forall k | 0 <= k < |r| :: r[k] == ToLowerChar(s[k])
  {
    seq(|s|, k requires 0 <= k < |s| => ToLowerChar(s[k]))
  }

  predicate IsLowerInvariant(s: string) {
    forall k | 0 <= k < |s| :: !IsUpperAscii(s[k])
  }

  lemma LowerIsLower(s: string)
    ensures IsLowerInvariant(ToLowerInvariant(s))
    ensures ToLowerInvariant(ToLowerInvariant(s)) == ToLowerInvariant(s)
  {
  }

  /** A string without upper-case ASCII letters is its own lower-case form. */
  lemma LowerOfLowerIsIdentity(s: string)
    requires IsLowerInvariant(s)
    ensures ToLowerInvariant(s) == s
  {
  }

  /** Lower-casing never turns a non-blank string into a blank one or back. */
  lemma LowerKeepsBlankness(s: string)
    ensures IsBlank(ToLowerInvariant(s)) <==> IsBlank(s)
  {
    var r := ToLowerInvariant(s);
    forall k | 0 <= k < |s|
      ensures IsWhiteSpace(r[k]) <==> IsWhiteSpace(s[k])
    {
      assert IsUpperAscii(s[k]) ==> !IsWhiteSpace(s[k]) && !IsWhiteSpace(r[k]);
    }
  }

  /** Number of blanks at the start of `s`. */
  function LeadingBlanks(s: string): (n: nat)
    ensures n <= |s|
    ensures IsBlank(s[..n])
    ensures n < |s| ==> !IsWhiteSpace(s[n])
    decreases |s|
  {
    if |s| > 0 && IsWhiteSpace(s[0]) then 1 + LeadingBlanks(s[1..]) else 0
  }

  /** A blank string followed by a blank is blank. */
  lemma BlankAppend(a: string, c: char)
    requires IsBlank(a) && IsWhiteSpace(c)
    ensures IsBlank(a + [c])
  {
    forall k | 0 <= k < |a| + 1
      ensures IsWhiteSpace((a + [c])[k])
    {
      if k < |a| {
        assert (a + [c])[k] == a[k];
      }
    }
  }

  /** Number of blanks at the end of `s`. */
  function TrailingBlanks(s: string): (n: nat)
    ensures n <= |s|
    ensures IsBlank(s[|s| - n..])
    ensures n < |s| ==> !IsWhiteSpace(s[|s| - 1 - n])
    decreases |s|
  {
    if |s| > 0 && IsWhiteSpace(s[|s| - 1]) then
      var init := s[..|s| - 1];
      var m := TrailingBlanks(init);
      assert s[|s| - (m + 1)..] == init[|init| - m..] + [s[|s| - 1]];
      BlankAppend(init[|init| - m..], s[|s| - 1]);
      assert m + 1 < |s| ==> s[|s| - 1 - (m + 1)] == init[|init| - 1 - m];
      m + 1
    else 0
  }

  /** `r` is `s` with a blank prefix and a blank suffix cut off and no blank at
      either end of what is left. */
  ghost predicate IsTrimOf(s: string, r: string) {
    && HasNoBlankEdge(r)
    && exists i | 0 <= i <= |s| - |r| ::
         && s[i..i + |r|] == r
         && IsBlank(s[..i])
         && IsBlank(s[i + |r|..])
  }

  /** `string.Trim()`: blanks removed from both ends. */
  function Trim(s: string): (r: string)
    ensures IsTrimOf(s, r)
  {
    var i := LeadingBlanks(s);
    var t := s[i..];
    var n := TrailingBlanks(t);
    var r := t[..|t| - n];
    assert s[i..i + |r|] == r;
    assert s[i + |r|..] == t[|t| - n..];
    assert HasNoBlankEdge(r) by {
      if |r| > 0 {
        assert r[0] == s[i];
        assert r[|r| - 1] == t[|t| - 1 - n];
      }
    }
    assert IsBlank(s[..i]) && IsBlank(s[i + |r|..]);
    r
  }

  /** A string with no blank at either end is left alone by `Trim`. */
  lemma TrimKeepsTrimmed(s: string)
    requires HasNoBlankEdge(s)
    ensures Trim(s) == s
  {
    assert LeadingBlanks(s) == 0;
    assert TrailingBlanks(s) == 0;
  }

  /** Trimming twice is trimming once. */
  lemma TrimIdempotent(s: string)
    ensures Trim(Trim(s)) == Trim(s)
  {
    TrimKeepsTrimmed(Trim(s));
  }

  /** Decimal rendering of an integer, as `Int32.ToString()` prints it. */
  function Decimal(n: int): (r: string)
    ensures |r| > 0
    ensures n < 0 <==> r[0] == '-'
    ensures n >= 10 ==> |r| >= 2
    decreases if n < 0 then 1 - n else n
  {
    if n < 0 then "-" + Decimal(-n)
    else if n < 10 then ["0123456789"[n]]
    else Decimal(n / 10) + Decimal(n % 10)
  }

  /** The only integer printed as "0" is zero. */
  lemma DecimalZero(n: int)
    ensures Decimal(n) == "0" <==> n == 0
  {
    if 0 < n < 10 {
      assert Decimal(n)[0] == "0123456789"[n];
    }
  }
}

=== FILE: wrappers.dfy ===
/** Failure-carrying values used across the model: `Option` stands for a .NET
    reference that may be null, `Result` for a call that may throw. */
module Wrappers {

  datatype Option<+T> = None | Some(value: T) {

    /** The wrapped value, or `default` when there is none (C#'s `??`). */
    function GetOr(default: T): T {
      match this
      case Some(v) => v
      case None => default
    }
  }

  datatype Result<+R, +E> = Success(value: R) | Failure(error: E)
}
